=== FILE: README.md ===
# tablescraper tables, in Dafny

tablescraper collects the HTML tables of a web page into `Table` values. A
`Table` is a list of rows, and each row is a list of cell strings. Row 0 is
the header. The program then renders the tables in one of several formats:

- a bordered text grid (`Print`);
- Markdown (`PrintMarkdown`);
- CSV (`PrintCSV`);
- JSON, one table (`PrintJSON`, through `ToJSON`) or all of them (`PrintAllTablesJSON`);
- a standalone HTML document (`PrintHTML`).

This project models that table core in `cmd/scraper/table.go`. It also models
the older `table.go` at the repository root, with its borderless printout, as
a module of its own. The Dafny files are:

| file | module | what it models |
|---|---|---|
| `text.dfy` | `Text` | the Go string operations the renderers rely on |
| `layout.dfy` | `Layout` | where each column starts on a rendered line |
| `table.dfy` | `Tables` | the table, `isNumeric` and the column widths |
| `bordered.dfy` | `Bordered` | the bordered text renderer |
| `markdown.dfy` | `Markdown` | the Markdown renderer |
| `output.dfy` | `Output` | a writer whose writes may fail |
| `csv.dfy` | `Csv` | the CSV renderer |
| `records.dfy` | `Records` | `ToJSON`, the JSON renderers and their JSON values |
| `html.dfy` | `Html` | the HTML renderer and `html.EscapeString` |
| `legacy.dfy` | `Legacy` | the root `table.go` |

`text.dfy` covers:

- `len`, counted in UTF-8 bytes;
- `%*s` and `%-*s`, which pad by rune count and reject widths above 1,000,000;
- `strings.Cut`, `strings.Split` and `strings.TrimSpace`;
- `%d`.

Conventions:

- A string is a sequence of runes.
- The text renderers produce a list of lines. Each line is one `Fprintln`, without its newline.
- The CSV and JSON renderers produce a list of events: a printed line, a record handed to `csv.Writer`, or a value handed to `json.Encoder`.
- The HTML renderer produces the list of chunks it writes, one per `Fprint`.
- Column widths are measured in bytes, as Go's `len` counts. A cell's padding is measured in runes, as fmt pads. The printing members' `Fits` and `CellsFit` say a cell fits its column when its rune count is at most the column's width and that width is one fmt accepts (at most 1,000,000). A byte count is never below the rune count, so a width computed from bytes always fits.
- A writer is described by the writes that fail and their errors. A renderer that returns at the first failed write emits a prefix of its chunks.

## Model

| member | source | states |
|---|---|---|
| Text.ByteLen | cmd/scraper/table.go:45 | Go's `len` of a line counts UTF-8 bytes: at least the rune count, at most four times it |
| Text.ByteLenAppend | cmd/scraper/table.go:45 | the byte length of a concatenation is the sum of the parts' byte lengths |
| Text.PadLeft | cmd/scraper/table.go:66 | the padding `%*s` applies for a width fmt accepts: the field is max(runes, width) long, the text is at its right end, blanks are before it, and nothing is truncated |
| Text.PadRight | cmd/scraper/table.go:68 | the padding `%-*s` applies for a width fmt accepts: the text is at the start of the field, blanks follow, and nothing is truncated |
| Text.Justify | cmd/scraper/table.go:66-68 | `%*s` and `%-*s` with the width as an argument: a width of at most 1,000,000 pads as above; a larger one prints `%!(BADWIDTH)` and then the text without padding |
| Text.IndexOf | cmd/scraper/table.go:81 | the first occurrence of the separator, or -1 exactly when it is absent |
| Text.Cut | cmd/scraper/table.go:81 | `strings.Cut` at `\n`: found iff the cell holds a `\n`; then the cell is before + `\n` + after, and before has no `\n`; otherwise before is the whole cell and after is empty |
| Text.CutUnique | cmd/scraper/table.go:81 | cutting before + sep + after, where before has no sep, gives back exactly those parts |
| Text.Split | cmd/scraper/table.go:44 | `strings.Split` gives one more line than the cell has `\n`s, and no line holds a `\n` |
| Text.JoinSplit | cmd/scraper/table.go:44 | joining the lines of a cell with `\n` gives the cell back |
| Text.SplitJoin | cmd/scraper/table.go:44 | splitting a join of separator-free pieces gives the pieces back |
| Text.TrimSpace | cmd/scraper/table.go:82 | `strings.TrimSpace` removes only leading and trailing white space: the result is a contiguous part of the input with nothing but white space before and after it, its ends are not white space, and an already trimmed input is returned unchanged |
| Text.TrimLeft | cmd/scraper/table.go:82 | the result is a suffix of the input, everything dropped is white space, and the first rune kept is not |
| Text.TrimRight | cmd/scraper/table.go:82 | the result is a prefix of the input, everything dropped is white space, and the last rune kept is not |
| Text.NatToString | cmd/scraper/table.go:202 | `%d` of a table index is a non-empty string of decimal digits, with no leading zero for a positive number |
| Text.DecimalRoundTrip | cmd/scraper/table.go:202 | the decimal form of n reads back as n |
| Text.NatToStringInjective | cmd/scraper/table.go:202 | different numbers have different decimal forms |
| Tables.NewTable | cmd/scraper/table.go:17-21 | a new table has no rows |
| Tables.AddRow | cmd/scraper/table.go:23-25 | the row is appended last, every earlier row is unchanged, and its length is not checked |
| Tables.BuildKeepsRows | cmd/scraper/main_test.go:21-32 | adding rows one by one to a new table yields exactly those rows, in order |
| Tables.IsNumeric | cmd/scraper/table.go:27-34 | a cell is numeric iff every rune is a Unicode number, so the empty cell is numeric |
| Tables.NumericExamples | cmd/scraper/table.go:27-34 | "", "28" and "½" are numeric; "3.5", "-2" and "28 " are not |
| Tables.CellWidthSingleLine | cmd/scraper/table.go:44-48 | a cell without a line break needs exactly its byte length |
| Tables.CellWidthCut | cmd/scraper/table.go:44-48 | a multi-line cell needs the wider of its first line and the rest |
| Tables.CellWidthTrim | cmd/scraper/table.go:82 | trimming white space never makes a cell need more width |
| Tables.LongestLineBound | cmd/scraper/table.go:44-48 | no line is longer than the longest line |
| Tables.LongestLineWitness | cmd/scraper/table.go:44-48 | the longest line's length is 0 or some line's length |
| Tables.ColumnWidthBound | cmd/scraper/table.go:41-50 | every cell in column i of any row fits column i's width |
| Tables.Widths | cmd/scraper/table.go:36-52 | there is one width per header cell, and none for a table without rows |
| Tables.WidthsAreMaxima | cmd/scraper/table.go:41-50 | width i bounds the byte length of every line of every cell in column i, and a width above 0 is the length of one such line |
| Tables.WidthsFit | cmd/scraper/table.go:41-50 | when no row is longer than the header, every cell has a column and fits its width |
| Tables.AsciiCellWidth | cmd/scraper/main_test.go:34-51 | a one-line ASCII cell needs exactly its length |
| Tables.SampleWidths | cmd/scraper/main_test.go:34-51 | the three-row sample table has column widths 10, 3 and 17 |
| Tables.TestTableWidths | cmd/scraper/main_test.go:34-51 | the test table itself, with its literal cells, has column widths 10, 3 and 17 |
| Tables.CalculateColumnWidths | cmd/scraper/table.go:36-52 | the nested loops over rows, cells and lines compute exactly the column maxima |
| Tables.ScanRow | cmd/scraper/table.go:43-49 | one pass of the row loop extends the maxima from rows 0..k-1 to rows 0..k |
| Tables.ScanCell | cmd/scraper/table.go:44-48 | the line loop raises column i to its longest line and leaves every other column alone |
| Bordered.CellText | cmd/scraper/table.go:63-70 | a cell fragment starts with a bar; for an accepted width it is max(runes, width) + 3 long, so a fitting cell never widens its column; for a rejected width it is the text, `%!(BADWIDTH)` and the framing, whatever the width |
| Bordered.CellTextLayout | cmd/scraper/table.go:63-70 | for an accepted width, a numeric cell sits against the right edge and other cells against the left, and the rest of the field is blank; for a rejected width the text follows `%!(BADWIDTH)`; a fragment has a line break only if its text has one |
| Bordered.LineLayout | cmd/scraper/table.go:63-72 | a row line of fitting cells has a bar at both ends, fragment j at column j's offset, its length fixed by the widths, and no line break when the texts have none |
| Bordered.Border | cmd/scraper/table.go:104-109 | the border is as long as a full row line, has `+` at both ends and has no line break |
| Bordered.BorderLayout | cmd/scraper/table.go:104-109 | the border holds `+` and a run of width + 2 dashes at each column's offset |
| Bordered.SingleCells | cmd/scraper/table.go:63-70 | a single-line row justifies each cell unchanged, to the right exactly when it is numeric |
| Bordered.FirstCells | cmd/scraper/table.go:80-88 | the first line of a multi-line row shows, for each cell, `TrimSpace` of the text before its first line break (so no line break and no longer than that text), to the right exactly when the untrimmed text is numeric |
| Bordered.Continuation | cmd/scraper/table.go:78-82 | the continuation row has a cell per cell, each `TrimSpace` of the text after that cell's first line break, so "" for a cell without one; the row has fewer line breaks left whenever it had one |
| Bordered.PrintRow | cmd/scraper/table.go:54-76 | a row prints as one line iff no cell has a line break; otherwise as at most one line per line break plus one |
| Bordered.PrintMultiLineRow | cmd/scraper/table.go:78-95 | a row printed through the multi-line path takes at least two lines |
| Bordered.FirstCellFits | cmd/scraper/table.go:81-82 | a cell's trimmed first line has no line break and fits the cell's column |
| Bordered.ContinuationFits | cmd/scraper/table.go:81-82 | the continuation cells still fit the widths computed for the original cells |
| Bordered.FirstLineColumns | cmd/scraper/table.go:54-95 | the first printed line of a fitting row holds each cell's fragment at its column's offset |
| Bordered.PrintRowShape | cmd/scraper/table.go:54-95 | every line printed for a fitting row starts with a bar, is as long as the row's columns plus one, and has no line break |
| Bordered.RowEdges | cmd/scraper/table.go:54-95 | every line printed for a fitting row has a bar at the start of each of the row's columns |
| Bordered.RowsFit | cmd/scraper/table.go:103 | when the widths are ones fmt accepts, every cell of a table fits them |
| Bordered.Print | cmd/scraper/table.go:97-123 | a table without rows prints "(empty table)"; otherwise at least one line per row plus three borders |
| Bordered.PrintBorders | cmd/scraper/table.go:111-122 | the printout is a border, the header row's lines, a border, the other rows' lines and a border |
| Bordered.PrintHeader | cmd/scraper/table.go:111-113 | the lines after the top border are the header row's lines |
| Bordered.PrintFrame | cmd/scraper/table.go:97-123 | for column widths fmt accepts, exactly the three borders start with `+`; every line is non-empty, no longer than the border, and has no line break |
| Bordered.PrintRectangular | cmd/scraper/table.go:97-123 | for column widths fmt accepts, when every row has a cell per header cell, all printed lines are as long as the border |
| Bordered.PrintGrid | cmd/scraper/table.go:97-123 | for column widths fmt accepts, when every row has a cell per header cell, each line has `+` (borders) or a bar (other lines) at every column offset, so the columns line up |
| Markdown.MarkdownLine | cmd/scraper/table.go:132-135 | a Markdown line starts and ends with a bar and is a lone bar exactly for an empty row |
| Markdown.SeparatorIsLine | cmd/scraper/table.go:138-141 | the separator is the Markdown line of a row of `---` cells, one per header cell |
| Markdown.PrintMarkdown | cmd/scraper/table.go:125-150 | "(empty table)" for a table without rows; otherwise one line per row plus the separator |
| Markdown.ParseLine | cmd/scraper/table.go:132-135 | reading a line yields one cell more than the line has inner bars |
| Markdown.MarkdownRoundTrip | cmd/scraper/table.go:144-149 | a row whose cells hold no bar reads back from its Markdown line exactly |
| Markdown.PrintMarkdownLines | cmd/scraper/table.go:131-149 | line 0 is the header's, line 1 the separator and line k + 1 data row k's |
| Markdown.PrintMarkdownReadsBack | cmd/scraper/table.go:125-150 | reading the printout back gives the header, one `---` per header cell, and every data row, when no cell holds a bar |
| Markdown.HeaderReadsBack | cmd/scraper/table.go:131-141 | the first two lines read back as the header row and one `---` per header cell |
| Output.FirstFailure | cmd/scraper/table.go:236-327 | the earliest failing write among the first n, or none exactly when all of them succeed |
| Output.Emit | cmd/scraper/table.go:236-327 | writing stops at the first failure: the earlier items are written, nothing later is, and that write's error is returned; with no failure everything is written |
| Output.WriteAll | cmd/scraper/table.go:236-327 | the return-on-error write loop leaves behind exactly what Emit describes |
| Output.EmitAppend | cmd/scraper/table.go:236-327 | a failure in the first part stops the writes before the second part starts |
| Csv.PrintCsv | cmd/scraper/table.go:152-168 | "(empty table)" for a table without rows |
| Csv.RecordsOfRecords | cmd/scraper/table.go:159-166 | the records handed over are the rows |
| Csv.AsRecords | cmd/scraper/table.go:162-166 | the rows become the records handed to the CSV writer, one per row, in order |
| Csv.PrintCsvComplete | cmd/scraper/table.go:152-168 | when no write fails, the records handed to the CSV writer are all the rows, header first, and nothing else is printed |
| Csv.PrintCsvStops | cmd/scraper/table.go:162-166 | when write k is the first to fail, rows 0 to k - 1 are written and then a line "Error writing CSV: " with the error |
| Records.RowMap | cmd/scraper/table.go:226-229 | a data row becomes a record keyed by the header cells of its columns, and of no others |
| Records.RowMapAt | cmd/scraper/table.go:226-229 | a cell is the value of its header's key unless a later column has the same header |
| Records.LastIndex | cmd/scraper/table.go:226-229 | the last column with a given header, or -1 exactly when no column has it |
| Records.RowMapLookup | cmd/scraper/table.go:226-229 | a key is present iff some column has that header, and then it holds the cell of the last such column |
| Records.RowMapDistinct | cmd/scraper/table.go:224-231 | with distinct headers, each cell is under its own header, and headers beyond a short row are absent |
| Records.ToJson | cmd/scraper/table.go:217-234 | no records for a table of at most one row; otherwise one record per data row, in order, each built from the header |
| Records.HeaderSetSize | cmd/scraper/table.go:226-229 | n distinct headers give n different keys |
| Records.RecordRoundTrip | cmd/scraper/table.go:224-231 | with distinct headers, a row can be rebuilt from its record |
| Records.ToJsonRoundTrip | cmd/scraper/table.go:217-234 | with distinct headers, every data row can be rebuilt from its record |
| Records.RecordValueRoundTrip | cmd/scraper/table.go:224-231 | a record read back from its JSON object is the record: every field is a string under its own key |
| Records.RecordsValueRoundTrip | cmd/scraper/table.go:217-234 | the records read back from their JSON value are the records, in order; no records give `null`, which reads back as none |
| Records.PrintJsonReadsBack | cmd/scraper/table.go:170-193 | when the encoder's write succeeds, PrintJSON writes one value and no error line, and it reads back as ToJSON's records |
| Records.PrintJsonRoundTrip | cmd/scraper/table.go:170-193 | with distinct headers and a successful write, the data rows can be rebuilt from the JSON PrintJSON writes |
| Records.Encode | cmd/scraper/table.go:187-192 | the encoder is handed the value; an error line naming the write's error follows exactly when the write fails |
| Records.PrintJson | cmd/scraper/table.go:170-193 | `[]` for a table without rows, `null` for a header-only table, an array of one object per data row otherwise; an error line only when the write fails |
| Records.TableEntry | cmd/scraper/table.go:200-206 | each table becomes an object with exactly the keys name, url and rows, with the page url and its records |
| Records.TableName | cmd/scraper/table.go:202 | table i (from 0) is named "Table " followed by decimal digits, without a leading zero, whose value is i + 1 |
| Records.PrintAllTables | cmd/scraper/table.go:195-215 | the value of all tables is handed to the encoder, followed by an error line exactly when the write fails |
| Records.TableNamesDistinct | cmd/scraper/table.go:202 | different tables get different names |
| Records.AllTablesValue | cmd/scraper/table.go:195-215 | `null` when there are no tables, because the slice is then nil; otherwise one entry per table, in order |
| Records.PrintAllTablesReadsBack | cmd/scraper/table.go:195-215 | when the write succeeds, one array is written with an entry per table, in order: entry i is named "Table i+1", gives the URL, and its rows read back as table i's records |
| Records.AllTablesEntries | cmd/scraper/table.go:195-215 | the entries have pairwise different names, and a table's rows are `null` exactly when it has at most one row |
| Html.Escape | cmd/scraper/table.go:286 | escaped text holds no `<`, `>`, `"` or `'`, and is no shorter than the input |
| Html.UnescapeChar | cmd/scraper/table.go:286 | each escaped rune reads back as itself |
| Html.EscapeRoundTrip | cmd/scraper/table.go:286 | unescaping escaped text gives the text back |
| Html.CellMarkup | cmd/scraper/table.go:284-310 | a rendered `<th>` or `<td>` cell contains only two `<`: its opening tag's and its closing tag's, so no cell text can open a tag |
| Html.CellChunks | cmd/scraper/table.go:284-310 | one write per cell, in order: the escaped cell in `<th>` for the header row and in `<td>` otherwise |
| Html.ReadCells | cmd/scraper/table.go:284-310 | reading back a row's cell writes, unescaped, appends exactly the row's cells to the open row |
| Html.HtmlChunks | cmd/scraper/table.go:236-327 | a table without rows is written as one comment; otherwise the document starts with the preamble and ends with the closing tags |
| Html.PrintHtml | cmd/scraper/table.go:236-327 | the writes stop at the first failure and return its error; with no failure the whole document is written |
| Html.BodyNoHeaderCells | cmd/scraper/table.go:297-316 | the body has no `<th>` cells |
| Html.HeaderCellsInHead | cmd/scraper/table.go:274-295 | the `<th>` cells are the header row's cells, escaped and in order, right after the head's `<tr>`, and no other write is a `<th>` |
| Html.BodyChunksSize | cmd/scraper/table.go:297-316 | the body takes two writes per row plus one per cell |
| Html.HtmlChunksSize | cmd/scraper/table.go:236-327 | a document takes 8 writes, plus two per row, plus one per cell |
| Html.ReadFromAppend | cmd/scraper/table.go:274-316 | reading a concatenation reads the first part and then the second |
| Html.ReadRow | cmd/scraper/table.go:280-292 | reading a row's `<tr>`, its cells and `</tr>` appends exactly that row, unescaped |
| Html.ReadBody | cmd/scraper/table.go:297-316 | reading the body appends exactly the data rows |
| Html.HtmlRoundTrip | cmd/scraper/table.go:236-327 | reading the cells of the written document back, row by row and unescaped, gives the table's rows |
| Legacy.NewTable | table.go:9-13 | a new table has no rows |
| Legacy.AddRow | table.go:15-17 | the row is appended last and every earlier row is unchanged |
| Legacy.ColumnWidthBound | table.go:19-33 | no cell of column i is longer, in bytes, than the column's width |
| Legacy.Widths | table.go:19-33 | there is one width per header cell |
| Legacy.WidthsAreMaxima | table.go:19-33 | width i is the byte length of the longest cell of column i, line breaks included |
| Legacy.CalculateColumnWidths | table.go:19-33 | the loops over rows and cells compute exactly those maxima |
| Legacy.Piece | table.go:45 | a printed cell is a blank, the cell, and a blank and a bar at the end; for an accepted width it is left-justified in its column, for a rejected one it follows `%!(BADWIDTH)` unpadded |
| Legacy.Print | table.go:35-49 | "(empty table)" for a table without rows; otherwise one line per row, with no borders or separator |
| Legacy.RowLineLength | table.go:41-47 | a row of fitting cells prints exactly as long as its columns |
| Legacy.RowLineLayout | table.go:41-47 | each cell's piece starts at its column's offset |
| Legacy.PrintLayout | table.go:35-49 | when the widths are ones fmt accepts, line k of the printout is row k's cells, each left-justified to its column's width and starting at that column's offset |
| Legacy.PrintAligned | table.go:35-49 | for column widths fmt accepts, when every row has a cell per header cell, all printed lines have the same length |
| Legacy.WidthsAgree | table.go:19-33 | with no line breaks in any cell, the old and the current version compute the same widths |

## Left out

- Scraping and the CLI are not part of this model: `scrape.go`, `scraper.go`, `main.go` and the colly crawler. Their input is the list of rows that `AddRow` receives.
- The bytes `encoding/csv` writes for a record (quoting, separators, line endings) are left out. A record is modelled as the row handed to `Write`.
- The `csv.Writer` buffer and its `Flush` are left out. The model puts a write error on the `Write` call for the record, which is where `PrintCSV` checks it. In Go the writer buffers 4 KiB, so for a small table a failing `w` usually reports its error only at the deferred `Flush`, whose error `PrintCSV` discards: no error line is printed and nothing reaches `w`. Csv.PrintCsvComplete therefore speaks of the records handed to the CSV writer, not of bytes that reach `w`.
- The bytes `encoding/json` writes are left out: the two-space indentation and the escaping of `<`, `>` and `&`. The model keeps the JSON value handed to the encoder.
- A Go map has no order. A record's keys are modelled as a Dafny map. Encoded keys come out sorted, so they hold no ordering information the model loses.
- Print and PrintMarkdown ignore the errors of their `Fprint` calls. The model therefore gives them no writer and yields only the lines.
- The CSS and fixed markup of the HTML preamble are kept as constant text. Nothing is proved about their content.
- Html.Unescape reads back only the five entities `EscapeString` produces (`&amp;`, `&#39;`, `&lt;`, `&gt;`, `&#34;`). It is not a general HTML entity decoder.
- Text.IsNumber: `unicode.IsNumber` is modelled for the Latin-1 range only: digits, superscripts one to three, and the fractions ¼, ½ and ¾. Outside Latin-1 it answers false, because the Unicode tables are not modelled.
- Rows longer than the header row are excluded by a `WithinHeader` requirement, because they make the source panic and the model does not render a panic. In `CalculateColumnWidths` and `printRow` the panic is an index past the end of the widths slice. In `PrintJSON` and `ToJSON` it is an index past the end of the `headers` slice. The members with this requirement:
  - Tables.WidthsFit and Tables.CalculateColumnWidths;
  - Bordered.Print, Bordered.RowsFit, Bordered.PrintBorders, Bordered.PrintHeader, Bordered.PrintUnfold, Bordered.TableRowsShape, Bordered.PrintFrame, Bordered.PrintRectangular and Bordered.PrintGrid;
  - Records.ToJson, Records.ToJsonRoundTrip, Records.PrintJson, Records.TableEntry, Records.AllTablesValue, Records.PrintAllTables, Records.AllTablesEntries, Records.PrintJsonReadsBack, Records.PrintJsonRoundTrip and Records.PrintAllTablesReadsBack;
  - Legacy.CalculateColumnWidths, Legacy.Print, Legacy.PrintAligned and Legacy.PrintLayout.
- Bordered.RowsFit, Bordered.TableRowsShape, Bordered.PrintFrame, Bordered.PrintRectangular, Bordered.PrintGrid, Legacy.PrintAligned and Legacy.PrintLayout require every column width to be at most 1,000,000 (`AcceptedWidths`). A wider column makes fmt print `%!(BADWIDTH)` and the cell without padding, so the printed lines no longer line up. Text.Justify, Bordered.CellText and Legacy.Piece model that output; the alignment lemmas do not cover it.
- Output.Writer describes an `io.Writer` only by which writes fail. The written bytes are the chunks themselves; short writes are not modelled.

## Behaviour of the code worth knowing

- PrintJSON and PrintCSV return nothing. On a failed write they print an error line instead of returning the error.
- A row shorter than the header prints fewer cells. Its JSON record simply lacks the missing keys; they are not filled with "".
- The header row fixes the number of columns only for some renderers. A row longer than the header makes Print (through calculateColumnWidths and printRow indexing the widths), PrintJSON, ToJSON and PrintAllTablesJSON (indexing `headers`) panic. PrintMarkdown, PrintCSV and PrintHTML print such a row in full, and Markdown.PrintMarkdown, Csv.PrintCsv and Html.PrintHtml model them without any requirement on row length.
- A cell is "numeric" when every rune satisfies `unicode.IsNumber`, which takes in more than decimal digits. The empty cell is numeric.

=== FILE: bordered.dfy ===
/**
 The bordered-text renderer of `cmd/scraper/table.go` (`printRow`,
 `printMultiLineRow`, `Print`). Every rendered line is one `Fprintln`: a
 sequence of cell fragments `| <text padded to the column width> ` closed by
 `|`, or a border `+----+---+`. Numeric cells are right-justified, the others
 left-justified. A row with a line break in any cell is printed as its first
 lines followed by a continuation row holding the rest of each cell.
 */
module Bordered {
  import opened Text
  import opened Layout
  import opened Tables

  /** A cell as placed on one rendered line: its text and whether it is
      right-justified. */
  datatype Placed = Placed(text: string, right: bool)

  // ---------------------------------------------------------------------------
  // Lines and borders

  /** One `| %*s ` (right) or `| %-*s ` (left) fragment: the text padded to
      the column width, never truncated, between `| ` and a blank. A width
      that fmt rejects leaves the text unpadded behind BadWidth, so the
      fragment is then as long as the text and its framing, whatever the
      width. */
  function CellText(p: Placed, width: nat): (r: string)
    ensures width <= MaxWidth ==> |r| == Max(|p.text|, width) + 3
    ensures width > MaxWidth ==> |r| == |p.text| + |BadWidth| + 3
    ensures |r| > 0 && r[0] == '|'
  {
    "| " + Justify(p.text, width, p.right) + " "
  }

  /** The text of a fragment sits against the right or left edge of its field,
      the rest of the field is blank, and the fragment holds a line break only
      when the text does. */
  lemma CellTextLayout(p: Placed, width: nat)
    ensures var r := CellText(p, width);
      && r[..2] == "| " && r[|r| - 1] == ' '
      && (width <= MaxWidth && p.right ==> r[|r| - 1 - |p.text|..|r| - 1] == p.text)
      && (width <= MaxWidth && p.right ==> forall i :: 2 <= i < |r| - 1 - |p.text| ==> r[i] == ' ')
      && (width <= MaxWidth && !p.right ==> r[2..2 + |p.text|] == p.text)
      && (width <= MaxWidth && !p.right ==> forall i :: 2 + |p.text| <= i < |r| - 1 ==> r[i] == ' ')
      && (width > MaxWidth ==> r[2..14] == BadWidth && r[14..|r| - 1] == p.text)
      && ('\n' in r ==> '\n' in p.text)
  {
    var field := Justify(p.text, width, p.right);
    var r := CellText(p, width);
    assert r == "| " + field + " ";
    assert r[2..|r| - 1] == field;
  }

  function Fill(ps: seq<Placed>, widths: seq<nat>): string
    requires |ps| <= |widths|
  {
    if |ps| == 0 then "" else CellText(ps[0], widths[0]) + Fill(ps[1..], widths[1..])
  }

  /** One rendered row line: the fragments, then the right edge `|`. */
  function Line(ps: seq<Placed>, widths: seq<nat>): string
    requires |ps| <= |widths|
  {
    Fill(ps, widths) + "|"
  }

  /** Every placed text fits its column. */
  predicate Fits(ps: seq<Placed>, widths: seq<nat>) {
    |ps| <= |widths| && forall j :: 0 <= j < |ps| ==> |ps[j].text| <= widths[j] <= MaxWidth
  }

  /** The layout of a line whose texts fit: column j's fragment starts at
      Offset(widths, j), the line ends with `|` right after the last column,
      it starts with `|`, and it holds no line break when no text does. */
  lemma {:induction false} LineLayout(ps: seq<Placed>, widths: seq<nat>)
    requires Fits(ps, widths)
    ensures |Line(ps, widths)| == Offset(widths, |ps|) + 1
    ensures Line(ps, widths)[0] == '|' && Line(ps, widths)[|Line(ps, widths)| - 1] == '|'
    ensures Columns(Line(ps, widths), widths, Frags(ps, widths))
    ensures (forall j :: 0 <= j < |ps| ==> '\n' !in ps[j].text) ==> '\n' !in Line(ps, widths)
  {
    FillLayout(ps, widths);
    var fs := Frags(ps, widths);
    forall j | 0 <= j < |ps|
      ensures Holds(Line(ps, widths), Offset(widths, j), fs[j])
    {
      HoldsPrefix(Fill(ps, widths), "|", Offset(widths, j), fs[j]);
    }
  }

  lemma {:induction false} FillLayout(ps: seq<Placed>, widths: seq<nat>)
    requires Fits(ps, widths)
    ensures |Fill(ps, widths)| == Offset(widths, |ps|)
    ensures |ps| > 0 ==> Fill(ps, widths)[0] == '|'
    ensures Columns(Fill(ps, widths), widths, Frags(ps, widths))
    ensures (forall j :: 0 <= j < |ps| ==> '\n' !in ps[j].text) ==> '\n' !in Fill(ps, widths)
  {
    FillLength(ps, widths);
    FillColumns(ps, widths);
    if forall j :: 0 <= j < |ps| ==> '\n' !in ps[j].text {
      FillNoBreak(ps, widths);
    }
  }

  lemma FitsTail(ps: seq<Placed>, widths: seq<nat>)
    requires Fits(ps, widths) && |ps| > 0
    ensures Fits(ps[1..], widths[1..])
  {
    assert forall j :: 0 <= j < |ps| - 1 ==> ps[1..][j] == ps[j + 1] && widths[1..][j] == widths[j + 1];
  }

  lemma {:induction false} FillLength(ps: seq<Placed>, widths: seq<nat>)
    requires Fits(ps, widths)
    ensures |Fill(ps, widths)| == Offset(widths, |ps|)
  {
    if |ps| > 0 {
      FitsTail(ps, widths);
      FillLength(ps[1..], widths[1..]);
    }
  }

  lemma {:induction false} FillNoBreak(ps: seq<Placed>, widths: seq<nat>)
    requires |ps| <= |widths|
    requires forall j :: 0 <= j < |ps| ==> '\n' !in ps[j].text
    ensures '\n' !in Fill(ps, widths)
  {
    if |ps| > 0 {
      assert forall j :: 0 <= j < |ps| - 1 ==> ps[1..][j] == ps[j + 1];
      FillNoBreak(ps[1..], widths[1..]);
      CellTextLayout(ps[0], widths[0]);
    }
  }

  /** The fragments of the placed texts, in order. */
  function Frags(ps: seq<Placed>, widths: seq<nat>): (fs: seq<string>)
    requires |ps| <= |widths|
    ensures |fs| == |ps|
  {
    seq(|ps|, j requires 0 <= j < |ps| => CellText(ps[j], widths[j]))
  }

  lemma FragsTail(ps: seq<Placed>, widths: seq<nat>)
    requires 0 < |ps| <= |widths|
    ensures Frags(ps, widths)[1..] == Frags(ps[1..], widths[1..])
  {
    assert forall j :: 0 <= j < |ps| - 1 ==> ps[1..][j] == ps[j + 1] && widths[1..][j] == widths[j + 1];
  }

  lemma {:induction false} FillColumns(ps: seq<Placed>, widths: seq<nat>)
    requires Fits(ps, widths)
    ensures Columns(Fill(ps, widths), widths, Frags(ps, widths))
  {
    if |ps| > 0 {
      FitsTail(ps, widths);
      FillColumns(ps[1..], widths[1..]);
      FragsTail(ps, widths);
      ColumnsCons(CellText(ps[0], widths[0]), Fill(ps[1..], widths[1..]), widths, Frags(ps, widths));
    }
  }

  /** The border piece above or below a column of the given width. */
  function Rule(width: nat): string {
    "+" + Repeat('-', width + 2)
  }

  /** A horizontal border: `+` and width + 2 dashes per column, then `+`. It is
      as long as a line whose cells fit. */
  function Border(widths: seq<nat>): (r: string)
    ensures |r| == Offset(widths, |widths|) + 1
    ensures r[0] == '+' && r[|r| - 1] == '+'
    ensures '\n' !in r
  {
    if |widths| == 0 then "+" else Rule(widths[0]) + Border(widths[1..])
  }

  /** The rules of the columns, in order. */
  function Rules(widths: seq<nat>): (rs: seq<string>)
    ensures |rs| == |widths|
  {
    seq(|widths|, j requires 0 <= j < |widths| => Rule(widths[j]))
  }

  /** The `+` corners of a border sit where the row lines have their `|`
      separators: column j's rule starts at Offset(widths, j). */
  lemma {:induction false} BorderLayout(widths: seq<nat>)
    ensures Columns(Border(widths), widths, Rules(widths))
  {
    if |widths| > 0 {
      BorderLayout(widths[1..]);
      assert Rules(widths)[1..] == Rules(widths[1..]);
      ColumnsCons(Rule(widths[0]), Border(widths[1..]), widths, Rules(widths));
    }
  }

  // ---------------------------------------------------------------------------
  // Rows

  /** Some cell of the row holds a line break (the isMultiLineRow check). */
  predicate HasMultiLine(row: Row) {
    exists j :: 0 <= j < |row| && '\n' in row[j]
  }

  /** The number of line breaks in the cells of the row. */
  function Newlines(row: Row): nat
  {
    if |row| == 0 then 0 else multiset(row[0])['\n'] + Newlines(row[1..])
  }

  lemma {:induction false} NewlinesPositive(row: Row)
    ensures HasMultiLine(row) <==> Newlines(row) > 0
  {
    if |row| > 0 {
      NewlinesPositive(row[1..]);
      assert HasMultiLine(row) <==> '\n' in row[0] || HasMultiLine(row[1..]) by {
        if HasMultiLine(row) {
          var j :| 0 <= j < |row| && '\n' in row[j];
          if j > 0 { assert row[1..][j - 1] == row[j]; }
        }
        if HasMultiLine(row[1..]) {
          var j :| 0 <= j < |row[1..]| && '\n' in row[1..][j];
          assert row[j + 1] == row[1..][j];
        }
      }
    }
  }

  /** The cells of a row without line breaks, numeric ones right-justified. */
  function SingleCells(row: Row): (ps: seq<Placed>)
    ensures |ps| == |row|
    ensures forall j :: 0 <= j < |row| ==> ps[j].text == row[j] && (ps[j].right <==> IsNumeric(row[j]))
  {
    seq(|row|, j requires 0 <= j < |row| => Placed(row[j], IsNumeric(row[j])))
  }

  /** The first line of each cell of a multi-line row, trimmed, justified by
      whether the untrimmed first line is numeric. The text is TrimSpace of
      the first line, and so has no line break and is no longer than it. */
  function FirstCells(row: Row): (ps: seq<Placed>)
    ensures |ps| == |row|
    ensures forall j :: 0 <= j < |row| ==>
      && '\n' !in ps[j].text && |ps[j].text| <= |Cut(row[j], '\n').before|
      && (ps[j].right <==> IsNumeric(Cut(row[j], '\n').before))
    ensures forall j :: 0 <= j < |row| ==> ps[j].text == TrimSpace(Cut(row[j], '\n').before)
  {
    var ps := seq(|row|, j requires 0 <= j < |row| =>
      var c := Cut(row[j], '\n'); Placed(TrimSpace(c.before), IsNumeric(c.before)));
    assert forall j :: 0 <= j < |row| ==> multiset(ps[j].text)['\n'] <= multiset(Cut(row[j], '\n').before)['\n'] == 0;
    ps
  }

  /** The continuation row of a multi-line row: what follows the first line
      break of each cell, trimmed; empty for a cell without a line break. It
      has as many cells as the row and strictly fewer line breaks. */
  function Continuation(row: Row): (next: Row)
    ensures |next| == |row|
    ensures forall j :: 0 <= j < |row| ==> next[j] == TrimSpace(Cut(row[j], '\n').after)
    ensures forall j :: 0 <= j < |row| && '\n' !in row[j] ==> next[j] == ""
    ensures Newlines(next) <= Newlines(row)
    ensures HasMultiLine(row) ==> Newlines(next) < Newlines(row)
  {
    var next := seq(|row|, j requires 0 <= j < |row| => TrimSpace(Cut(row[j], '\n').after));
    forall j | 0 <= j < |row|
      ensures multiset(next[j])['\n'] <= multiset(row[j])['\n']
      ensures '\n' in row[j] ==> multiset(next[j])['\n'] < multiset(row[j])['\n']
    {
      if '\n' in row[j] {
        CutCount(row[j], '\n');
      }
    }
    NewlinesLe(next, row);
    next
  }

  /** Summing per-cell line-break counts: a pointwise bound is a bound of the
      sums, and a strict one somewhere makes it strict. */
  lemma {:induction false} NewlinesLe(a: Row, b: Row)
    requires |a| == |b|
    requires forall j :: 0 <= j < |a| ==> multiset(a[j])['\n'] <= multiset(b[j])['\n']
    requires forall j :: 0 <= j < |a| && '\n' in b[j] ==> multiset(a[j])['\n'] < multiset(b[j])['\n']
    ensures Newlines(a) <= Newlines(b)
    ensures HasMultiLine(b) ==> Newlines(a) < Newlines(b)
  {
    NewlinesPositive(b);
    if |a| > 0 {
      assert forall j :: 0 <= j < |a| - 1 ==> a[1..][j] == a[j + 1] && b[1..][j] == b[j + 1];
      NewlinesLe(a[1..], b[1..]);
      NewlinesPositive(b[1..]);
      if '\n' !in b[0] && Newlines(b) > 0 {
        assert Newlines(b[1..]) > 0;
      }
    }
  }

  /** printRow: one line for a row without line breaks, otherwise the lines of
      printMultiLineRow. At least one line, one per line break at most beyond
      the first. */
  function PrintRow(row: Row, widths: seq<nat>): (lines: seq<string>)
    requires |row| <= |widths|
    ensures 1 <= |lines| <= 1 + Newlines(row)
    ensures |lines| == 1 <==> !HasMultiLine(row)
    decreases Newlines(row), 1
  {
    NewlinesPositive(row);
    if !HasMultiLine(row) then [Line(SingleCells(row), widths)]
    else PrintMultiLineRow(row, widths)
  }

  /** printMultiLineRow: the first line of every cell, then the lines of the
      continuation row; so never fewer than two lines. */
  function PrintMultiLineRow(row: Row, widths: seq<nat>): (lines: seq<string>)
    requires |row| <= |widths|
    ensures |lines| >= 2
    ensures HasMultiLine(row) ==> |lines| <= 1 + Newlines(row)
    decreases if HasMultiLine(row) then Newlines(row) else 1, 0
  {
    NewlinesPositive(row);
    NewlinesPositive(Continuation(row));
    [Line(FirstCells(row), widths)] + PrintRow(Continuation(row), widths)
  }

  // ---------------------------------------------------------------------------
  // The table

  /** The lines of the rows, one row after the other. */
  function RowsLines(rows: seq<Row>, widths: seq<nat>): (lines: seq<string>)
    requires forall k :: 0 <= k < |rows| ==> |rows[k]| <= |widths|
    ensures |lines| >= |rows|
  {
    if |rows| == 0 then [] else PrintRow(rows[0], widths) + RowsLines(rows[1..], widths)
  }

  /** Print: "(empty table)" for a table without rows; otherwise a top border,
      the header row, a separator border, the other rows and a bottom border. */
  function Print(t: Table): (lines: seq<string>)
    requires WithinHeader(t)
    ensures |t.rows| == 0 ==> lines == ["(empty table)"]
    ensures |t.rows| > 0 ==> |lines| >= |t.rows| + 3
  {
    if |t.rows| == 0 then ["(empty table)"]
    else
      var w := Widths(t);
      [Border(w)] + PrintRow(t.rows[0], w) + [Border(w)] + RowsLines(t.rows[1..], w) + [Border(w)]
  }

  // ---------------------------------------------------------------------------
  // Layout theorems

  /** Every cell of the row fits its column, line by line. */
  predicate CellsFit(row: Row, widths: seq<nat>) {
    |row| <= |widths| && forall j :: 0 <= j < |row| ==> CellWidth(row[j]) <= widths[j] <= MaxWidth
  }

  /** A rendered row line of the given length: it starts with `|` and holds
      no line break. */
  predicate RowLine(l: string, n: nat) {
    |l| == n && n > 0 && l[0] == '|' && '\n' !in l
  }

  predicate RowLines(lines: seq<string>, n: nat) {
    forall i :: 0 <= i < |lines| ==> RowLine(lines[i], n)
  }

  /** Each line of a row that fits is a row line as long as that row's fields
      and the right edge. */
  lemma {:induction false} PrintRowShape(row: Row, widths: seq<nat>)
    requires CellsFit(row, widths)
    ensures RowLines(PrintRow(row, widths), Offset(widths, |row|) + 1)
    decreases Newlines(row)
  {
    var n := Offset(widths, |row|) + 1;
    if !HasMultiLine(row) {
      SingleLineShape(row, widths);
      PrintRowSingle(row, widths);
    } else {
      var next := Continuation(row);
      FirstLineShape(row, widths);
      ContinuationFits(row, widths);
      PrintRowShape(next, widths);
      assert Offset(widths, |next|) + 1 == n;
      PrintRowUnfold(row, widths);
      ConsRowLines(Line(FirstCells(row), widths), PrintRow(next, widths), n);
    }
  }

  /** The line of a row without line breaks. */
  lemma PrintRowSingle(row: Row, widths: seq<nat>)
    requires |row| <= |widths| && !HasMultiLine(row)
    ensures PrintRow(row, widths) == [Line(SingleCells(row), widths)]
  {
  }

  /** The lines of a multi-line row: its first line, then its continuation's. */
  lemma PrintRowUnfold(row: Row, widths: seq<nat>)
    requires |row| <= |widths| && HasMultiLine(row)
    ensures PrintRow(row, widths) == [Line(FirstCells(row), widths)] + PrintRow(Continuation(row), widths)
  {
  }

  lemma ConsRowLines(l: string, rest: seq<string>, n: nat)
    requires RowLine(l, n)
    requires RowLines(rest, n)
    ensures RowLines([l] + rest, n)
  {
  }

  lemma SingleCellsFit(row: Row, widths: seq<nat>)
    requires CellsFit(row, widths) && !HasMultiLine(row)
    ensures Fits(SingleCells(row), widths)
    ensures forall j :: 0 <= j < |row| ==> '\n' !in SingleCells(row)[j].text
  {
    forall j | 0 <= j < |row|
      ensures |row[j]| <= widths[j] && '\n' !in row[j]
    {
      CellWidthSingleLine(row[j]);
    }
  }

  lemma SingleLineShape(row: Row, widths: seq<nat>)
    requires CellsFit(row, widths) && !HasMultiLine(row)
    ensures RowLine(Line(SingleCells(row), widths), Offset(widths, |row|) + 1)
  {
    SingleCellsFit(row, widths);
    LineLayout(SingleCells(row), widths);
  }

  lemma {:induction false} FirstLineShape(row: Row, widths: seq<nat>)
    requires CellsFit(row, widths)
    ensures RowLine(Line(FirstCells(row), widths), Offset(widths, |row|) + 1)
  {
    FirstCellsFit(row, widths);
    LineLayout(FirstCells(row), widths);
  }

  lemma {:induction false} FirstCellsFit(row: Row, widths: seq<nat>)
    requires CellsFit(row, widths)
    ensures Fits(FirstCells(row), widths)
    ensures forall j :: 0 <= j < |row| ==> '\n' !in FirstCells(row)[j].text
  {
    forall j | 0 <= j < |row|
      ensures |FirstCells(row)[j].text| <= widths[j] && '\n' !in FirstCells(row)[j].text
    {
      FirstCellFits(row[j], widths[j]);
    }
  }

  lemma {:induction false} FirstCellFits(cell: string, width: nat)
    requires CellWidth(cell) <= width
    ensures |TrimSpace(Cut(cell, '\n').before)| <= width
    ensures '\n' !in TrimSpace(Cut(cell, '\n').before)
  {
    var c := Cut(cell, '\n');
    var t := TrimSpace(c.before);
    if '\n' in cell {
      CellWidthCut(cell);
    } else {
      CellWidthSingleLine(cell);
    }
    assert multiset(t)['\n'] <= multiset(c.before)['\n'] == 0;
  }

  lemma {:induction false} ContinuationFits(row: Row, widths: seq<nat>)
    requires CellsFit(row, widths)
    ensures CellsFit(Continuation(row), widths)
  {
    var next := Continuation(row);
    forall j | 0 <= j < |row|
      ensures CellWidth(next[j]) <= widths[j]
    {
      NextCellFits(row[j]);
    }
  }

  lemma {:induction false} NextCellFits(cell: string)
    ensures CellWidth(TrimSpace(Cut(cell, '\n').after)) <= CellWidth(cell)
  {
    var c := Cut(cell, '\n');
    if '\n' in cell {
      CellWidthTrim(c.after);
      CellWidthCut(cell);
    } else {
      assert TrimSpace(c.after) == "";
      CellWidthSingleLine("");
    }
  }

  /** The justification of the first line of a row that fits: column j holds
      the fragment CellText describes for the cell, or, in a multi-line row, for
      the cell's trimmed first line. */
  lemma {:induction false} FirstLineColumns(row: Row, widths: seq<nat>)
    requires CellsFit(row, widths)
    ensures !HasMultiLine(row) ==> Columns(PrintRow(row, widths)[0], widths, Frags(SingleCells(row), widths))
    ensures HasMultiLine(row) ==> Columns(PrintRow(row, widths)[0], widths, Frags(FirstCells(row), widths))
  {
    if HasMultiLine(row) {
      FirstCellsFit(row, widths);
      LineLayout(FirstCells(row), widths);
      PrintRowUnfold(row, widths);
    } else {
      SingleCellsFit(row, widths);
      LineLayout(SingleCells(row), widths);
      PrintRowSingle(row, widths);
    }
  }

  // ---------------------------------------------------------------------------
  // The whole table

  /** Lines that start with `|`, hold no line break and are no longer than m. */
  predicate ShortLines(lines: seq<string>, m: nat) {
    forall i :: 0 <= i < |lines| ==> 0 < |lines[i]| <= m && lines[i][0] == '|' && '\n' !in lines[i]
  }

  lemma RowLinesShort(lines: seq<string>, n: nat, m: nat)
    requires RowLines(lines, n) && n <= m
    ensures ShortLines(lines, m)
  {
  }

  lemma AppendRowLines(a: seq<string>, b: seq<string>, n: nat, m: nat)
    requires ShortLines(a, m) && ShortLines(b, m)
    requires RowLines(a, n) && RowLines(b, n)
    ensures ShortLines(a + b, m) && RowLines(a + b, n)
  {
  }

  lemma AppendShortLines(a: seq<string>, b: seq<string>, m: nat)
    requires ShortLines(a, m) && ShortLines(b, m)
    ensures ShortLines(a + b, m)
  {
  }

  /** Every row of the table fits the computed widths. */
  lemma RowsFit(t: Table)
    requires WithinHeader(t) && AcceptedWidths(Widths(t))
    ensures AllFit(t.rows, Widths(t))
  {
    forall k, i | 0 <= k < |t.rows| && 0 <= i < |t.rows[k]|
      ensures i < |Widths(t)| && CellWidth(t.rows[k][i]) <= Widths(t)[i] <= MaxWidth
    {
      WidthsFit(t, k, i);
    }
  }

  /** Every row fits the widths. */
  predicate AllFit(rows: seq<Row>, widths: seq<nat>) {
    forall k :: 0 <= k < |rows| ==> CellsFit(rows[k], widths)
  }

  /** Every row has n cells. */
  predicate Full(rows: seq<Row>, n: nat) {
    forall k :: 0 <= k < |rows| ==> |rows[k]| == n
  }

  lemma RowsTail(rows: seq<Row>, widths: seq<nat>)
    requires |rows| > 0 && AllFit(rows, widths)
    ensures AllFit(rows[1..], widths)
    ensures Full(rows, |widths|) ==> Full(rows[1..], |widths|)
  {
    assert forall k :: 0 <= k < |rows| - 1 ==> rows[1..][k] == rows[k + 1];
  }

  /** The lines of rows that fit are row lines no longer than a border, and
      exactly as long as one when every row has a cell per column. */
  lemma {:induction false} RowsLinesShape(rows: seq<Row>, widths: seq<nat>)
    requires AllFit(rows, widths)
    ensures ShortLines(RowsLines(rows, widths), |Border(widths)|)
    ensures Full(rows, |widths|) ==> RowLines(RowsLines(rows, widths), |Border(widths)|)
  {
    if |rows| > 0 {
      var m := |Border(widths)|;
      var first := PrintRow(rows[0], widths);
      var rest := RowsLines(rows[1..], widths);
      RowsTail(rows, widths);
      RowsLinesShape(rows[1..], widths);
      RowsLinesUnfold(rows, widths);
      RowShort(rows[0], widths);
      AppendShortLines(first, rest, m);
      if Full(rows, |widths|) {
        AppendRowLines(first, rest, m, m);
      }
    }
  }

  /** The lines of one row that fits are no longer than the border, and as
      long as it when the row has a cell per column. */
  lemma {:induction false} RowShort(row: Row, widths: seq<nat>)
    requires CellsFit(row, widths)
    ensures ShortLines(PrintRow(row, widths), |Border(widths)|)
    ensures |row| == |widths| ==> RowLines(PrintRow(row, widths), |Border(widths)|)
  {
    PrintRowShape(row, widths);
    OffsetMonotone(widths, |row|, |widths|);
    RowLinesShort(PrintRow(row, widths), Offset(widths, |row|) + 1, |Border(widths)|);
  }

  lemma RowsLinesUnfold(rows: seq<Row>, widths: seq<nat>)
    requires |rows| > 0
    requires forall k :: 0 <= k < |rows| ==> |rows[k]| <= |widths|
    ensures RowsLines(rows, widths) == PrintRow(rows[0], widths) + RowsLines(rows[1..], widths)
  {
  }

  /** Three borders around a header block and a body block of row lines: the
      lines starting with `+` are exactly the first, the one after the header
      block and the last. */
  lemma Frame(b: string, header: seq<string>, body: seq<string>)
    requires |b| > 0 && b[0] == '+' && '\n' !in b
    requires ShortLines(header, |b|) && ShortLines(body, |b|)
    ensures var lines := [b] + header + [b] + body + [b];
      forall i :: 0 <= i < |lines| ==>
        && 0 < |lines[i]| <= |b| && '\n' !in lines[i]
        && (lines[i][0] == '+' <==> i == 0 || i == |header| + 1 || i == |lines| - 1)
  {
    var lines := [b] + header + [b] + body + [b];
    forall i | 0 <= i < |lines|
      ensures 0 < |lines[i]| <= |b| && '\n' !in lines[i]
      ensures lines[i][0] == '+' <==> i == 0 || i == |header| + 1 || i == |lines| - 1
    {
      if 0 < i <= |header| {
        assert lines[i] == header[i - 1];
      } else if |header| + 1 < i < |lines| - 1 {
        assert lines[i] == body[i - |header| - 2];
      }
    }
  }

  /** The parts of a printed table with rows: a border, the header row's
      lines, a border, the other rows' lines and a border. */
  lemma PrintBorders(t: Table)
    requires WithinHeader(t) && |t.rows| > 0
    ensures var lines := Print(t); var h := |PrintRow(t.rows[0], Widths(t))|;
      && |lines| == h + |RowsLines(t.rows[1..], Widths(t))| + 3
      && lines[0] == Border(Widths(t)) && lines[h + 1] == Border(Widths(t))
      && lines[|lines| - 1] == Border(Widths(t))
      && lines[h + 2..|lines| - 1] == RowsLines(t.rows[1..], Widths(t))
  {
    var w := Widths(t);
    PrintUnfold(t);
    Parts(Print(t), Border(w), PrintRow(t.rows[0], w), RowsLines(t.rows[1..], w));
  }

  /** After the top border come the header row's lines. */
  lemma {:induction false} PrintHeader(t: Table)
    requires WithinHeader(t) && |t.rows| > 0
    ensures var header := PrintRow(t.rows[0], Widths(t));
      && |Print(t)| > |header| + 1
      && forall i :: 0 <= i < |header| ==> Print(t)[1 + i] == header[i]
  {
    var w := Widths(t);
    PrintUnfold(t);
    Parts(Print(t), Border(w), PrintRow(t.rows[0], w), RowsLines(t.rows[1..], w));
  }

  lemma PrintUnfold(t: Table)
    requires WithinHeader(t) && |t.rows| > 0
    ensures Print(t) == [Border(Widths(t))] + PrintRow(t.rows[0], Widths(t)) + [Border(Widths(t))]
                        + RowsLines(t.rows[1..], Widths(t)) + [Border(Widths(t))]
  {
  }

  lemma Parts(lines: seq<string>, b: string, header: seq<string>, body: seq<string>)
    requires lines == [b] + header + [b] + body + [b]
    ensures
      && |lines| == |header| + |body| + 3
      && lines[0] == b && lines[|header| + 1] == b && lines[|lines| - 1] == b
      && (forall i :: 0 <= i < |header| ==> lines[1 + i] == header[i])
      && lines[|header| + 2..|lines| - 1] == body
  {
    assert lines[|header| + 2..|lines| - 1] == body;
  }

  /** The lines of every row of a table, fitted to its widths, are row lines no
      longer than the border. */
  lemma {:induction false} TableRowsShape(t: Table)
    requires WithinHeader(t) && |t.rows| > 0 && AcceptedWidths(Widths(t))
    ensures ShortLines(PrintRow(t.rows[0], Widths(t)), |Border(Widths(t))|)
    ensures ShortLines(RowsLines(t.rows[1..], Widths(t)), |Border(Widths(t))|)
    ensures (forall k :: 0 <= k < |t.rows| ==> |t.rows[k]| == |t.rows[0]|) ==>
              && RowLines(PrintRow(t.rows[0], Widths(t)), |Border(Widths(t))|)
              && RowLines(RowsLines(t.rows[1..], Widths(t)), |Border(Widths(t))|)
  {
    var w := Widths(t);
    RowsFit(t);
    RowsTail(t.rows, w);
    RowsLinesShape(t.rows[1..], w);
    RowShort(t.rows[0], w);
  }

  /** The frame of a printed table with rows, with h the number of lines of
      the header row: the first line, line h + 1 and the last line are borders
      and no other line starts with `+`; no line holds a line break or is
      longer than the border. */
  lemma PrintFrame(t: Table)
    requires WithinHeader(t) && |t.rows| > 0 && AcceptedWidths(Widths(t))
    ensures var lines := Print(t); var h := |PrintRow(t.rows[0], Widths(t))|;
      forall i :: 0 <= i < |lines| ==>
        && 0 < |lines[i]| <= |Border(Widths(t))| && '\n' !in lines[i]
        && (lines[i][0] == '+' <==> i == 0 || i == h + 1 || i == |lines| - 1)
  {
    var w := Widths(t);
    TableRowsShape(t);
    Frame(Border(w), PrintRow(t.rows[0], w), RowsLines(t.rows[1..], w));
    PrintUnfold(t);
  }

  /** When every row has a cell per column, every printed line is exactly as
      long as the border, so the right edges line up. */
  lemma PrintRectangular(t: Table)
    requires WithinHeader(t) && |t.rows| > 0 && AcceptedWidths(Widths(t))
    requires forall k :: 0 <= k < |t.rows| ==> |t.rows[k]| == |t.rows[0]|
    ensures forall i :: 0 <= i < |Print(t)| ==> |Print(t)[i]| == |Border(Widths(t))|
  {
    var w := Widths(t);
    var b := Border(w);
    var header := PrintRow(t.rows[0], w);
    var body := RowsLines(t.rows[1..], w);
    TableRowsShape(t);
    SameLength(b, header, body);
    PrintUnfold(t);
  }

  lemma SameLength(b: string, header: seq<string>, body: seq<string>)
    requires RowLines(header, |b|) && RowLines(body, |b|)
    ensures var lines := [b] + header + [b] + body + [b];
      forall i :: 0 <= i < |lines| ==> |lines[i]| == |b|
  {
    var lines := [b] + header + [b] + body + [b];
    forall i | 0 <= i < |lines|
      ensures |lines[i]| == |b|
    {
      if 0 < i <= |header| {
        assert lines[i] == header[i - 1];
      } else if |header| + 1 < i < |lines| - 1 {
        assert lines[i] == body[i - |header| - 2];
      }
    }
  }

  // ---------------------------------------------------------------------------
  // The grid

  /** Line l has character c at the edge of each of the first n columns and
      right after the n-th. */
  predicate EdgesAt(l: string, widths: seq<nat>, n: nat, c: char)
    requires n <= |widths|
  {
    forall j :: 0 <= j <= n ==> Offset(widths, j) < |l| && l[Offset(widths, j)] == c
  }

  predicate LinesEdges(lines: seq<string>, widths: seq<nat>, n: nat)
    requires n <= |widths|
  {
    forall i :: 0 <= i < |lines| ==> EdgesAt(lines[i], widths, n, '|')
  }

  /** A line of fitting texts has its `|` at every column edge. */
  lemma LineEdges(ps: seq<Placed>, widths: seq<nat>)
    requires Fits(ps, widths)
    ensures EdgesAt(Line(ps, widths), widths, |ps|, '|')
  {
    var l := Line(ps, widths);
    var fs := Frags(ps, widths);
    LineLayout(ps, widths);
    forall j | 0 <= j <= |ps|
      ensures Offset(widths, j) < |l| && l[Offset(widths, j)] == '|'
    {
      if j < |ps| {
        OffsetMonotone(widths, j, |ps|);
        assert Holds(l, Offset(widths, j), fs[j]);
        assert l[Offset(widths, j)] == fs[j][0];
      }
    }
  }

  /** Every line a row prints, continuation lines included, has its `|` at
      the edge of each of the row's columns. */
  lemma {:induction false} RowEdges(row: Row, widths: seq<nat>)
    requires CellsFit(row, widths)
    ensures LinesEdges(PrintRow(row, widths), widths, |row|)
    decreases Newlines(row)
  {
    if !HasMultiLine(row) {
      SingleCellsFit(row, widths);
      LineEdges(SingleCells(row), widths);
      PrintRowSingle(row, widths);
    } else {
      var next := Continuation(row);
      FirstCellsFit(row, widths);
      LineEdges(FirstCells(row), widths);
      ContinuationFits(row, widths);
      RowEdges(next, widths);
      PrintRowUnfold(row, widths);
      ConsEdges(Line(FirstCells(row), widths), PrintRow(next, widths), widths, |row|);
    }
  }

  lemma ConsEdges(l: string, rest: seq<string>, widths: seq<nat>, n: nat)
    requires n <= |widths|
    requires EdgesAt(l, widths, n, '|') && LinesEdges(rest, widths, n)
    ensures LinesEdges([l] + rest, widths, n)
  {
    assert forall i :: 1 <= i < |rest| + 1 ==> ([l] + rest)[i] == rest[i - 1];
  }

  lemma {:induction false} RowsEdges(rows: seq<Row>, widths: seq<nat>)
    requires AllFit(rows, widths) && Full(rows, |widths|)
    ensures LinesEdges(RowsLines(rows, widths), widths, |widths|)
  {
    if |rows| > 0 {
      RowsTail(rows, widths);
      RowsEdges(rows[1..], widths);
      RowEdges(rows[0], widths);
      RowsLinesUnfold(rows, widths);
      AppendEdges(PrintRow(rows[0], widths), RowsLines(rows[1..], widths), widths, |widths|);
    }
  }

  lemma AppendEdges(a: seq<string>, b: seq<string>, widths: seq<nat>, n: nat)
    requires n <= |widths| && LinesEdges(a, widths, n) && LinesEdges(b, widths, n)
    ensures LinesEdges(a + b, widths, n)
  {
    assert forall i :: |a| <= i < |a + b| ==> (a + b)[i] == b[i - |a|];
  }

  /** A border has its `+` at every column edge. */
  lemma BorderEdges(widths: seq<nat>)
    ensures EdgesAt(Border(widths), widths, |widths|, '+')
  {
    var b := Border(widths);
    var rs := Rules(widths);
    BorderLayout(widths);
    forall j | 0 <= j <= |widths|
      ensures Offset(widths, j) < |b| && b[Offset(widths, j)] == '+'
    {
      if j < |widths| {
        OffsetMonotone(widths, j, |widths|);
        assert Holds(b, Offset(widths, j), rs[j]);
        assert b[Offset(widths, j)] == rs[j][0];
      }
    }
  }

  /** In a table whose rows all have a cell per column the printout is a grid:
      at the edge of every column, and after the last, the border lines have
      a `+` and all other lines a `|`. */
  lemma {:induction false} PrintGrid(t: Table)
    requires WithinHeader(t) && |t.rows| > 0 && AcceptedWidths(Widths(t))
    requires forall k :: 0 <= k < |t.rows| ==> |t.rows[k]| == |t.rows[0]|
    ensures var lines := Print(t); var h := |PrintRow(t.rows[0], Widths(t))|;
      forall i :: 0 <= i < |lines| ==>
        EdgesAt(lines[i], Widths(t), |t.rows[0]|, if i == 0 || i == h + 1 || i == |lines| - 1 then '+' else '|')
  {
    var w := Widths(t);
    RowsFit(t);
    assert Full(t.rows, |w|);
    RowsTail(t.rows, w);
    RowEdges(t.rows[0], w);
    RowsEdges(t.rows[1..], w);
    BorderEdges(w);
    PrintUnfold(t);
    Grid(Border(w), PrintRow(t.rows[0], w), RowsLines(t.rows[1..], w), w);
  }

  lemma Grid(b: string, header: seq<string>, body: seq<string>, widths: seq<nat>)
    requires EdgesAt(b, widths, |widths|, '+')
    requires LinesEdges(header, widths, |widths|) && LinesEdges(body, widths, |widths|)
    ensures var lines := [b] + header + [b] + body + [b];
      forall i :: 0 <= i < |lines| ==>
        EdgesAt(lines[i], widths, |widths|, if i == 0 || i == |header| + 1 || i == |lines| - 1 then '+' else '|')
  {
    var lines := [b] + header + [b] + body + [b];
    forall i | 0 <= i < |lines|
      ensures EdgesAt(lines[i], widths, |widths|, if i == 0 || i == |header| + 1 || i == |lines| - 1 then '+' else '|')
    {
      if 0 < i <= |header| {
        assert lines[i] == header[i - 1];
      } else if |header| + 1 < i < |lines| - 1 {
        assert lines[i] == body[i - |header| - 2];
      }
    }
  }
}

=== FILE: csv.dfy ===
/**
 The CSV renderer of `cmd/scraper/table.go` (`PrintCSV`). Every row, the
 header included, is handed to a `csv.Writer` in order; the first row whose
 write fails stops the loop and is reported on a line of its own. The bytes
 `encoding/csv` produces for a record (quoting, separators) are not modelled:
 a record is the row handed to it.
 */
module Csv {
  import opened Text
  import opened Tables
  import opened Output

  /** What PrintCSV writes: a line, or a record for the CSV writer. */
  datatype Event = Line(text: string) | Record(fields: Row)

  function AsRecords(rows: seq<Row>): (events: seq<Event>)
    ensures |events| == |rows|
    ensures forall k :: 0 <= k < |rows| ==> events[k] == Record(rows[k])
  {
    seq(|rows|, k requires 0 <= k < |rows| => Record(rows[k]))
  }

  /** PrintCSV, with the CSV writer's k-th Write failing as `w` says:
      "(empty table)" for a table without rows; otherwise the rows up to the
      first failing one as records, then the error line if a write failed.
      Rows may have any number of cells. */
  function PrintCsv(t: Table, w: Writer): (events: seq<Event>)
    ensures |t.rows| == 0 ==> events == [Line("(empty table)")]
  {
    if |t.rows| == 0 then [Line("(empty table)")]
    else
      var r := Emit(t.rows, w);
      AsRecords(r.written) + if r.err.Some? then [Line("Error writing CSV: " + r.err.value)] else []
  }

  /** The records among the events, in order. */
  function Records(events: seq<Event>): seq<Row>
  {
    if |events| == 0 then []
    else (if events[0].Record? then [events[0].fields] else []) + Records(events[1..])
  }

  lemma {:induction false} RecordsOfRecords(rows: seq<Row>)
    ensures Records(AsRecords(rows)) == rows
  {
    if |rows| > 0 {
      assert AsRecords(rows)[1..] == AsRecords(rows[1..]);
      RecordsOfRecords(rows[1..]);
    }
  }

  lemma {:induction false} RecordsAppend(a: seq<Event>, b: seq<Event>)
    ensures Records(a + b) == Records(a) + Records(b)
  {
    if |a| > 0 {
      assert (a + b)[0] == a[0] && (a + b)[1..] == a[1..] + b;
      RecordsAppend(a[1..], b);
      var head := if a[0].Record? then [a[0].fields] else [];
      assert Records(a + b) == head + Records(a[1..] + b);
      assert Records(a) == head + Records(a[1..]);
      assert head + (Records(a[1..]) + Records(b)) == (head + Records(a[1..])) + Records(b);
    } else {
      assert a + b == b;
    }
  }

  /** When every write goes through, the records written are the table's
      rows, header first, and nothing else is written. */
  lemma PrintCsvComplete(t: Table, w: Writer)
    requires |t.rows| > 0
    requires forall k :: 0 <= k < |t.rows| ==> !Fails(w, k)
    ensures PrintCsv(t, w) == AsRecords(t.rows)
    ensures Records(PrintCsv(t, w)) == t.rows
  {
    RecordsOfRecords(t.rows);
  }

  /** When write k is the first to fail, the records written are rows 0 to
      k - 1 and the last line reports the error. */
  lemma PrintCsvStops(t: Table, w: Writer, k: nat)
    requires k < |t.rows| && Fails(w, k)
    requires forall i :: 0 <= i < k ==> !Fails(w, i)
    ensures Records(PrintCsv(t, w)) == t.rows[..k]
    ensures |PrintCsv(t, w)| == k + 1
    ensures PrintCsv(t, w)[k] == Line("Error writing CSV: " + w.failing[k])
  {
    var r := Emit(t.rows, w);
    assert |r.written| == k;
    var err := [Line("Error writing CSV: " + w.failing[k])];
    assert PrintCsv(t, w) == AsRecords(t.rows[..k]) + err;
    RecordsAppend(AsRecords(t.rows[..k]), err);
    RecordsOfRecords(t.rows[..k]);
    assert Records(err) == [];
  }
}

=== FILE: html.dfy ===
/**
 The HTML renderer of `cmd/scraper/table.go` (`PrintHTML`). The document is
 a sequence of writes, one per `Fprint` call: a preamble with the style
 sheet, the `<table>` with a `<thead>` holding the header row as `<th>` cells
 and a `<tbody>` holding the other rows as `<td>` cells, and the closing
 tags. Every cell is escaped with `html.EscapeString`. The renderer stops at
 the first failed write and returns its error.
 */
module Html {
  import opened Text
  import opened Tables
  import opened Output

  // ---------------------------------------------------------------------------
  // Escaping

  /** html.EscapeString on one rune: the five characters HTML gives meaning
      to become entities, every other rune stays. */
  function EscapeChar(c: char): string
  {
    if c == '&' then "&amp;"
    else if c == '\'' then "&#39;"
    else if c == '<' then "&lt;"
    else if c == '>' then "&gt;"
    else if c == '"' then "&#34;"
    else [c]
  }

  /** html.EscapeString: no `<`, `>`, `"` or `'` is left, and the text is never
      shorter than before. */
  function Escape(s: string): (r: string)
    ensures |r| >= |s|
    ensures forall i :: 0 <= i < |r| ==> r[i] != '<' && r[i] != '>' && r[i] != '"' && r[i] != '\''
  {
    if |s| == 0 then "" else EscapeChar(s[0]) + Escape(s[1..])
  }

  /** html.UnescapeString, restricted to the five entities Escape writes. */
  function Unescape(s: string): string
  {
    if |s| == 0 then ""
    else if |s| >= 5 && s[..5] == "&amp;" then "&" + Unescape(s[5..])
    else if |s| >= 5 && s[..5] == "&#39;" then "'" + Unescape(s[5..])
    else if |s| >= 4 && s[..4] == "&lt;" then "<" + Unescape(s[4..])
    else if |s| >= 4 && s[..4] == "&gt;" then ">" + Unescape(s[4..])
    else if |s| >= 5 && s[..5] == "&#34;" then "\"" + Unescape(s[5..])
    else [s[0]] + Unescape(s[1..])
  }

  lemma {:induction false} UnescapeChar(c: char, rest: string)
    ensures Unescape(EscapeChar(c) + rest) == [c] + Unescape(rest)
  {
    if c == '&' {
      UnescapeAmp(rest);
    } else if c == '\'' {
      UnescapeApos(rest);
    } else if c == '<' {
      UnescapeLt(rest);
    } else if c == '>' {
      UnescapeGt(rest);
    } else if c == '"' {
      UnescapeQuot(rest);
    } else {
      var s := [c] + rest;
      assert s[0] == c && s[1..] == rest;
    }
  }

  lemma UnescapeAmp(rest: string)
    ensures Unescape("&amp;" + rest) == "&" + Unescape(rest)
  {
    var s := "&amp;" + rest;
    assert s[..5] == "&amp;" && s[5..] == rest;
  }

  lemma UnescapeApos(rest: string)
    ensures Unescape("&#39;" + rest) == "'" + Unescape(rest)
  {
    var s := "&#39;" + rest;
    assert s[1] == '#';
    assert s[..5] == "&#39;" && s[5..] == rest;
  }

  lemma UnescapeLt(rest: string)
    ensures Unescape("&lt;" + rest) == "<" + Unescape(rest)
  {
    var s := "&lt;" + rest;
    assert s[1] == 'l';
    assert s[..4] == "&lt;" && s[4..] == rest;
  }

  lemma UnescapeGt(rest: string)
    ensures Unescape("&gt;" + rest) == ">" + Unescape(rest)
  {
    var s := "&gt;" + rest;
    assert s[1] == 'g';
    assert s[..4] == "&gt;" && s[4..] == rest;
  }

  lemma UnescapeQuot(rest: string)
    ensures Unescape("&#34;" + rest) == "\"" + Unescape(rest)
  {
    var s := "&#34;" + rest;
    assert s[1] == '#' && s[3] == '4';
    assert s[..5] == "&#34;" && s[5..] == rest;
  }

  /** Unescaping an escaped text gives it back: escaping loses nothing. */
  lemma {:induction false} EscapeRoundTrip(s: string)
    ensures Unescape(Escape(s)) == s
  {
    if |s| > 0 {
      EscapeRoundTrip(s[1..]);
      UnescapeChar(s[0], Escape(s[1..]));
    }
  }

  // ---------------------------------------------------------------------------
  // The writes

  /** One write of PrintHTML. Cells carry their escaped text. */
  datatype Chunk =
    | Preamble | TableOpen | HeadOpen | RowOpen | HeaderCell(escaped: string) | DataCell(escaped: string)
    | RowClose | HeadClose | BodyOpen | BodyClose | TableClose | DocClose | EmptyComment

  /** The document head with its style sheet, up to and including `<body>`. */
  const PreambleText: string :=
    "<!DOCTYPE html>\n<html>\n<head>\n    <style>\n        table {\n"
    + "            border-collapse: collapse;\n            width: 100%;\n"
    + "            margin: 1em 0;\n            font-family: sans-serif;\n        }\n"
    + "        th, td {\n            padding: 0.5em;\n            border: 1px solid #ddd;\n"
    + "            text-align: left;\n        }\n        th {\n"
    + "            background-color: #f2f2f2;\n            font-weight: bold;\n        }\n"
    + "        tr:nth-child(even) {\n            background-color: #f9f9f9;\n        }\n"
    + "    </style>\n</head>\n<body>\n"

  /** The text each write puts out. */
  function Render(c: Chunk): string
  {
    match c
    case Preamble => PreambleText
    case TableOpen => "<table>\n"
    case HeadOpen => "    <thead>\n"
    case RowOpen => "        <tr>"
    case HeaderCell(s) => "\n            <th>" + s + "</th>"
    case DataCell(s) => "\n            <td>" + s + "</td>"
    case RowClose => "\n        </tr>\n"
    case HeadClose => "    </thead>\n"
    case BodyOpen => "    <tbody>\n"
    case BodyClose => "    </tbody>\n"
    case TableClose => "</table>\n"
    case DocClose => "</body>\n</html>\n"
    case EmptyComment => "<!-- Empty table -->\n"
  }

  /** A cell cannot open a tag: the only `<` in a rendered cell are those of
      its own `<td>`/`<th>` and closing tag. */
  lemma CellMarkup(cell: string, header: bool)
    ensures var r := Render(if header then HeaderCell(Escape(cell)) else DataCell(Escape(cell)));
      && |r| == 22 + |Escape(cell)|
      && r[13] == '<' && r[|r| - 5] == '<'
      && forall i :: 0 <= i < |r| && r[i] == '<' ==> i == 13 || i == |r| - 5
  {
    var e := Escape(cell);
    if header {
      TagsTh();
      Tagged("\n            <th>", e, "</th>");
    } else {
      TagsTd();
      Tagged("\n            <td>", e, "</td>");
    }
  }

  lemma TagsTh()
    ensures var open := "\n            <th>";
      |open| == 17 && open[13] == '<' && '<' !in open[..13] && '<' !in open[14..]
    ensures var close := "</th>"; |close| == 5 && close[0] == '<' && '<' !in close[1..]
  {
  }

  lemma TagsTd()
    ensures var open := "\n            <td>";
      |open| == 17 && open[13] == '<' && '<' !in open[..13] && '<' !in open[14..]
    ensures var close := "</td>"; |close| == 5 && close[0] == '<' && '<' !in close[1..]
  {
  }

  /** Text without `<` between an opening tag whose only `<` is at 13 and a
      closing tag whose only `<` is its first character. */
  lemma Tagged(open: string, e: string, close: string)
    requires |open| == 17 && open[13] == '<' && '<' !in open[..13] && '<' !in open[14..]
    requires |close| == 5 && close[0] == '<' && '<' !in close[1..]
    requires forall i :: 0 <= i < |e| ==> e[i] != '<'
    ensures var r := open + e + close;
      && |r| == 22 + |e|
      && r[13] == '<' && r[|r| - 5] == '<'
      && forall i :: 0 <= i < |r| && r[i] == '<' ==> i == 13 || i == |r| - 5
  {
  }

  /** The cells of a row, each escaped, as header or data cells. */
  function CellChunks(row: Row, header: bool): (cs: seq<Chunk>)
    ensures |cs| == |row|
    ensures forall j :: 0 <= j < |row| ==> cs[j] == (if header then HeaderCell(Escape(row[j])) else DataCell(Escape(row[j])))
  {
    seq(|row|, j requires 0 <= j < |row| => if header then HeaderCell(Escape(row[j])) else DataCell(Escape(row[j])))
  }

  /** A `<tr>` with the row's cells. */
  function RowChunks(row: Row, header: bool): seq<Chunk>
  {
    [RowOpen] + CellChunks(row, header) + [RowClose]
  }

  /** The data rows of the `<tbody>`, in order. */
  function BodyChunks(rows: seq<Row>): seq<Chunk>
  {
    if |rows| == 0 then [] else RowChunks(rows[0], false) + BodyChunks(rows[1..])
  }

  /** The writes PrintHTML means to make: the empty-table comment alone, or the
      whole document. */
  function HtmlChunks(t: Table): (cs: seq<Chunk>)
    ensures |t.rows| == 0 ==> cs == [EmptyComment]
    ensures |cs| >= 1
    ensures |t.rows| > 0 ==> cs[0] == Preamble && cs[|cs| - 1] == DocClose
  {
    if |t.rows| == 0 then [EmptyComment]
    else
      [Preamble, TableOpen, HeadOpen] + RowChunks(t.rows[0], true) + [HeadClose, BodyOpen]
      + BodyChunks(t.rows[1..]) + [BodyClose, TableClose, DocClose]
  }

  /** PrintHTML on a writer: the writes up to the first failure, and the error
      returned. On a writer that never fails, every write is made and nil is
      returned. */
  function PrintHtml(t: Table, w: Writer): (r: Emitted<Chunk>)
    ensures r.err == None <==> forall i :: 0 <= i < |HtmlChunks(t)| ==> !Fails(w, i)
    ensures r.err == None ==> r.written == HtmlChunks(t)
    ensures r.err != None ==> |r.written| < |HtmlChunks(t)| && r.written == HtmlChunks(t)[..|r.written|]
                              && Fails(w, |r.written|) && r.err == Some(w.failing[|r.written|])
  {
    Emit(HtmlChunks(t), w)
  }

  /** No write of the run is a `<th>` cell. */
  predicate NoHeaderCells(cs: seq<Chunk>) {
    forall i :: 0 <= i < |cs| ==> !cs[i].HeaderCell?
  }

  lemma {:induction false} BodyNoHeaderCells(rows: seq<Row>)
    ensures NoHeaderCells(BodyChunks(rows))
  {
    if |rows| > 0 {
      BodyNoHeaderCells(rows[1..]);
      var a := RowChunks(rows[0], false);
      var b := BodyChunks(rows[1..]);
      assert forall i :: 0 <= i < |a| ==> !a[i].HeaderCell?;
      assert forall i :: 0 <= i < |a + b| ==> (a + b)[i] == if i < |a| then a[i] else b[i - |a|];
    }
  }

  /** The `<th>` cells of a document are the header row's cells, escaped, in
      order, right after the `<thead>`'s `<tr>`; no other write is a `<th>`. */
  lemma HeaderCellsInHead(t: Table)
    requires |t.rows| > 0
    ensures var cs := HtmlChunks(t); var n := |t.rows[0]|;
      && |cs| > 4 + n
      && (forall j :: 0 <= j < n ==> cs[4 + j] == HeaderCell(Escape(t.rows[0][j])))
      && (forall i :: 0 <= i < |cs| && cs[i].HeaderCell? ==> 4 <= i < 4 + n)
  {
    var cells := CellChunks(t.rows[0], true);
    var body := BodyChunks(t.rows[1..]);
    BodyNoHeaderCells(t.rows[1..]);
    HeadParts(HtmlChunks(t), cells, body);
  }

  lemma HeadParts(cs: seq<Chunk>, cells: seq<Chunk>, body: seq<Chunk>)
    requires cs == [Preamble, TableOpen, HeadOpen] + ([RowOpen] + cells + [RowClose]) + [HeadClose, BodyOpen]
                   + body + [BodyClose, TableClose, DocClose]
    requires NoHeaderCells(body)
    ensures |cs| > 4 + |cells|
    ensures forall j :: 0 <= j < |cells| ==> cs[4 + j] == cells[j]
    ensures forall i :: 0 <= i < |cs| && cs[i].HeaderCell? ==> 4 <= i < 4 + |cells|
  {
  }

  // ---------------------------------------------------------------------------
  // Counting the writes

  function TotalCells(rows: seq<Row>): nat
  {
    if |rows| == 0 then 0 else |rows[0]| + TotalCells(rows[1..])
  }

  lemma {:induction false} BodyChunksSize(rows: seq<Row>)
    ensures |BodyChunks(rows)| == 2 * |rows| + TotalCells(rows)
  {
    if |rows| > 0 {
      BodyChunksSize(rows[1..]);
    }
  }

  /** A document makes eight writes of its own, two per row and one per cell. */
  lemma HtmlChunksSize(t: Table)
    requires |t.rows| > 0
    ensures |HtmlChunks(t)| == 8 + 2 * |t.rows| + TotalCells(t.rows)
  {
    BodyChunksSize(t.rows[1..]);
    assert t.rows == [t.rows[0]] + t.rows[1..];
  }

  // ---------------------------------------------------------------------------
  // Reading the table back

  /** One step of reading the writes back: `<tr>` opens a row, a cell adds its
      unescaped text to the open row, everything else is markup. */
  function Step(acc: seq<Row>, c: Chunk): seq<Row>
  {
    match c
    case RowOpen => acc + [[]]
    case HeaderCell(e) => AddCell(acc, Unescape(e))
    case DataCell(e) => AddCell(acc, Unescape(e))
    case _ => acc
  }

  function AddCell(acc: seq<Row>, cell: string): seq<Row>
  {
    if |acc| == 0 then acc else acc[..|acc| - 1] + [acc[|acc| - 1] + [cell]]
  }

  function ReadFrom(acc: seq<Row>, chunks: seq<Chunk>): seq<Row>
    decreases |chunks|
  {
    if |chunks| == 0 then acc else ReadFrom(Step(acc, chunks[0]), chunks[1..])
  }

  /** The rows a run of writes describes. */
  function ReadTable(chunks: seq<Chunk>): seq<Row>
  {
    ReadFrom([], chunks)
  }

  lemma {:induction false} ReadFromAppend(acc: seq<Row>, a: seq<Chunk>, b: seq<Chunk>)
    ensures ReadFrom(acc, a + b) == ReadFrom(ReadFrom(acc, a), b)
    decreases |a|
  {
    if |a| == 0 {
      assert a + b == b;
    } else {
      assert (a + b)[0] == a[0] && (a + b)[1..] == a[1..] + b;
      ReadFromAppend(Step(acc, a[0]), a[1..], b);
    }
  }

  /** Reading a row's cells appends them to the open row. */
  lemma {:induction false} ReadCells(acc: seq<Row>, open: Row, row: Row, header: bool)
    ensures ReadFrom(acc + [open], CellChunks(row, header)) == acc + [open + row]
    decreases |row|
  {
    var cs := CellChunks(row, header);
    if |row| == 0 {
      assert open + row == open;
    } else {
      ReadCell(acc, open, row[0], header);
      assert cs[1..] == CellChunks(row[1..], header);
      ReadCells(acc, open + [row[0]], row[1..], header);
      assert open + [row[0]] + row[1..] == open + row;
    }
  }

  lemma {:induction false} ReadCell(acc: seq<Row>, open: Row, cell: string, header: bool)
    ensures Step(acc + [open], if header then HeaderCell(Escape(cell)) else DataCell(Escape(cell)))
            == acc + [open + [cell]]
  {
    EscapeRoundTrip(cell);
    var a := acc + [open];
    assert a[..|a| - 1] == acc && a[|a| - 1] == open;
  }

  /** Reading a `<tr>` appends its row. */
  lemma ReadRow(acc: seq<Row>, row: Row, header: bool)
    ensures ReadFrom(acc, RowChunks(row, header)) == acc + [row]
  {
    var cells := CellChunks(row, header);
    ReadFromAppend(acc, [RowOpen] + cells, [RowClose]);
    ReadFromAppend(acc, [RowOpen], cells);
    assert ReadFrom(acc, [RowOpen]) == acc + [[]];
    ReadCells(acc, [], row, header);
    assert [] + row == row;
  }

  /** Reading the `<tbody>` appends its rows. */
  lemma {:induction false} ReadBody(acc: seq<Row>, rows: seq<Row>)
    ensures ReadFrom(acc, BodyChunks(rows)) == acc + rows
    decreases |rows|
  {
    if |rows| > 0 {
      var first := RowChunks(rows[0], false);
      var rest := BodyChunks(rows[1..]);
      var mid := acc + [rows[0]];
      ReadRow(acc, rows[0], false);
      ReadBody(mid, rows[1..]);
      ReadChain(acc, first, rest, mid, mid + rows[1..]);
      AppendFirst(acc, rows);
    } else {
      assert acc + rows == acc;
    }
  }

  /** Reading two runs one after the other. */
  lemma ReadChain(acc: seq<Row>, a: seq<Chunk>, b: seq<Chunk>, mid: seq<Row>, out: seq<Row>)
    requires ReadFrom(acc, a) == mid && ReadFrom(mid, b) == out
    ensures ReadFrom(acc, a + b) == out
  {
    ReadFromAppend(acc, a, b);
  }

  lemma AppendFirst(acc: seq<Row>, rows: seq<Row>)
    requires |rows| > 0
    ensures acc + [rows[0]] + rows[1..] == acc + rows
  {
    assert rows == [rows[0]] + rows[1..];
  }

  /** Markup outside the rows reads as nothing. */
  lemma ReadMarkup(acc: seq<Row>, chunks: seq<Chunk>)
    requires forall i :: 0 <= i < |chunks| ==> !chunks[i].RowOpen? && !chunks[i].HeaderCell? && !chunks[i].DataCell?
    ensures ReadFrom(acc, chunks) == acc
  {
    if |chunks| > 0 {
      ReadMarkup(acc, chunks[1..]);
    }
  }

  /** Reading PrintHTML's writes back gives the table's rows: the header row
      from the `<thead>`, the others from the `<tbody>`, every cell unescaped
      to its original text; the empty-table comment reads as no rows. */
  lemma HtmlRoundTrip(t: Table)
    ensures ReadTable(HtmlChunks(t)) == t.rows
  {
    if |t.rows| > 0 {
      var head: seq<Chunk> := [Preamble, TableOpen, HeadOpen];
      var mid: seq<Chunk> := [HeadClose, BodyOpen];
      var tail: seq<Chunk> := [BodyClose, TableClose, DocClose];
      assert HtmlChunks(t) == head + RowChunks(t.rows[0], true) + mid + BodyChunks(t.rows[1..]) + tail;
      ReadDocument(head, t.rows[0], mid, t.rows[1..], tail);
      assert [t.rows[0]] + t.rows[1..] == t.rows;
    } else {
      ReadMarkup([], [EmptyComment]);
    }
  }

  /** A header row and body rows surrounded by markup read as those rows. */
  lemma ReadDocument(head: seq<Chunk>, header: Row, mid: seq<Chunk>, rows: seq<Row>, tail: seq<Chunk>)
    requires forall i :: 0 <= i < |head| ==> !head[i].RowOpen? && !head[i].HeaderCell? && !head[i].DataCell?
    requires forall i :: 0 <= i < |mid| ==> !mid[i].RowOpen? && !mid[i].HeaderCell? && !mid[i].DataCell?
    requires forall i :: 0 <= i < |tail| ==> !tail[i].RowOpen? && !tail[i].HeaderCell? && !tail[i].DataCell?
    ensures ReadTable(head + RowChunks(header, true) + mid + BodyChunks(rows) + tail) == [header] + rows
  {
    var hc := RowChunks(header, true);
    var bc := BodyChunks(rows);
    var s1 := head + hc;
    var s2 := s1 + mid;
    var s3 := s2 + bc;
    ReadMarkup([], head);
    ReadFromAppend([], head, hc);
    ReadRow([], header, true);
    assert ReadFrom([], s1) == [header];
    ReadFromAppend([], s1, mid);
    ReadMarkup([header], mid);
    assert ReadFrom([], s2) == [header];
    ReadFromAppend([], s2, bc);
    ReadBody([header], rows);
    assert ReadFrom([], s3) == [header] + rows;
    ReadFromAppend([], s3, tail);
    ReadMarkup([header] + rows, tail);
  }
}

=== FILE: layout.dfy ===
/**
 The column layout shared by the text renderers: every column of a rendered
 line takes its width plus three runes of framing (`| ` before the field and
 a blank after it in the bordered printout, a blank before and ` |` after in
 the borderless one), so column j starts at the sum of the framed widths of
 the columns before it.
 */
module Layout {

  /** Where column j starts on a rendered line: the widths of the columns
      before it, each with its three framing runes. */
  function Offset(widths: seq<nat>, j: nat): nat
    requires j <= |widths|
  {
    if j == 0 then 0 else widths[0] + 3 + Offset(widths[1..], j - 1)
  }

  lemma {:induction false} OffsetStep(widths: seq<nat>, j: nat)
    requires j < |widths|
    ensures Offset(widths, j + 1) == Offset(widths, j) + widths[j] + 3
  {
    if j > 0 {
      OffsetStep(widths[1..], j - 1);
    }
  }

  lemma OffsetMonotone(widths: seq<nat>, i: nat, j: nat)
    requires i <= j <= |widths|
    ensures Offset(widths, i) <= Offset(widths, j)
    decreases j - i
  {
    if i < j {
      OffsetStep(widths, i);
      OffsetMonotone(widths, i + 1, j);
    }
  }

  /** frag occurs in l starting at position at. */
  predicate Holds(l: string, at: nat, frag: string) {
    at + |frag| <= |l| && l[at..at + |frag|] == frag
  }

  lemma HoldsAppend(a: string, b: string, at: nat, frag: string)
    requires Holds(b, at, frag)
    ensures Holds(a + b, |a| + at, frag)
  {
    assert (a + b)[|a| + at..|a| + at + |frag|] == b[at..at + |frag|];
  }

  lemma HoldsPrefix(a: string, b: string, at: nat, frag: string)
    requires Holds(a, at, frag)
    ensures Holds(a + b, at, frag)
  {
    assert (a + b)[at..at + |frag|] == a[at..at + |frag|];
  }

  /** Column j's fragment starts at Offset(widths, j), for every fragment. */
  predicate Columns(l: string, widths: seq<nat>, frags: seq<string>)
    requires |frags| <= |widths|
  {
    forall j :: 0 <= j < |frags| ==> Holds(l, Offset(widths, j), frags[j])
  }

  /** Putting the first column's fragment, of its full framed width, in front
      of a line laid out for the other columns lays out all of them. */
  lemma ColumnsCons(head: string, rest: string, widths: seq<nat>, frags: seq<string>)
    requires 0 < |frags| <= |widths| && head == frags[0] && |head| == widths[0] + 3
    requires Columns(rest, widths[1..], frags[1..])
    ensures Columns(head + rest, widths, frags)
  {
    assert (head + rest)[..|head|] == head;
    forall j | 0 < j < |frags|
      ensures Holds(head + rest, Offset(widths, j), frags[j])
    {
      assert frags[1..][j - 1] == frags[j];
      HoldsAppend(head, rest, Offset(widths[1..], j - 1), frags[j]);
    }
  }
}

=== FILE: legacy.dfy ===
/**
 The first version of the table, in the repository's root `table.go`: the
 same table of rows, column widths taken over whole cells (line breaks are
 not looked at), and a borderless printout in which every cell is
 left-justified as ` cell |`.
 */
module Legacy {
  import opened Text
  import opened Layout
  import Tables

  type Row = seq<string>

  datatype Table = Table(rows: seq<Row>)

  /** NewTable: a table without rows. */
  function NewTable(): (t: Table)
    ensures |t.rows| == 0
  {
    Table([])
  }

  /** AddRow: the row goes last and the earlier rows stay as they were. */
  function AddRow(t: Table, row: Row): (t': Table)
    ensures |t'.rows| == |t.rows| + 1
    ensures t'.rows[|t.rows|] == row
    ensures t'.rows[..|t.rows|] == t.rows
  {
    Table(t.rows + [row])
  }

  /** No row has more cells than the header row, so every cell has a column. */
  predicate WithinHeader(t: Table) {
    forall k :: 0 <= k < |t.rows| ==> |t.rows[k]| <= |t.rows[0]|
  }

  /** The widest cell of column i, in bytes, over the rows that have one. */
  function ColumnWidth(rows: seq<Row>, i: nat): nat
  {
    if |rows| == 0 then 0
    else
      var last := rows[|rows| - 1];
      var w := ColumnWidth(rows[..|rows| - 1], i);
      if i < |last| then Max(w, ByteLen(last[i])) else w
  }

  lemma {:induction false} ColumnWidthBound(rows: seq<Row>, i: nat, k: nat)
    requires k < |rows| && i < |rows[k]|
    ensures ByteLen(rows[k][i]) <= ColumnWidth(rows, i)
  {
    if k < |rows| - 1 {
      ColumnWidthBound(rows[..|rows| - 1], i, k);
    }
  }

  lemma {:induction false} ColumnWidthWitness(rows: seq<Row>, i: nat) returns (k: int)
    ensures -1 <= k < |rows|
    ensures k == -1 ==> ColumnWidth(rows, i) == 0
    ensures k >= 0 ==> i < |rows[k]| && ColumnWidth(rows, i) == ByteLen(rows[k][i])
  {
    if |rows| == 0 {
      return -1;
    }
    var last := rows[|rows| - 1];
    k := ColumnWidthWitness(rows[..|rows| - 1], i);
    if i < |last| && ColumnWidth(rows[..|rows| - 1], i) <= ByteLen(last[i]) {
      k := |rows| - 1;
    }
  }

  /** The column widths: as many as the header row has cells (none for a
      table without rows). */
  function Widths(t: Table): (w: seq<nat>)
    ensures |w| == if |t.rows| == 0 then 0 else |t.rows[0]|
  {
    if |t.rows| == 0 then [] else seq(|t.rows[0]|, i requires 0 <= i => ColumnWidth(t.rows, i))
  }

  /** Each width is the byte length of the longest cell of its column: no cell
      is longer, and a width above zero is some cell's length. */
  lemma WidthsAreMaxima(t: Table, i: nat)
    requires |t.rows| > 0 && i < |t.rows[0]|
    ensures forall k :: 0 <= k < |t.rows| && i < |t.rows[k]| ==> ByteLen(t.rows[k][i]) <= Widths(t)[i]
    ensures Widths(t)[i] > 0 ==> exists k :: 0 <= k < |t.rows| && i < |t.rows[k]| && ByteLen(t.rows[k][i]) == Widths(t)[i]
  {
    forall k | 0 <= k < |t.rows| && i < |t.rows[k]|
      ensures ByteLen(t.rows[k][i]) <= Widths(t)[i]
    {
      ColumnWidthBound(t.rows, i, k);
    }
    var k := ColumnWidthWitness(t.rows, i);
  }

  /** CalculateColumnWidths: the loop over rows and cells raising each width to
      the cell's byte length. It computes Widths. */
  method CalculateColumnWidths(t: Table) returns (w: seq<nat>)
    requires WithinHeader(t)
    ensures w == Widths(t)
  {
    if |t.rows| == 0 {
      return [];
    }
    var n := |t.rows[0]|;
    w := seq(n, _ => 0);
    var k := 0;
    while k < |t.rows|
      invariant 0 <= k <= |t.rows|
      invariant |w| == n
      invariant forall i :: 0 <= i < n ==> w[i] == ColumnWidth(t.rows[..k], i)
    {
      var row := t.rows[k];
      assert t.rows[..k + 1][..k] == t.rows[..k];
      var j := 0;
      while j < |row|
        invariant 0 <= j <= |row| <= n
        invariant |w| == n
        invariant forall i :: 0 <= i < j ==> w[i] == ColumnWidth(t.rows[..k + 1], i)
        invariant forall i :: j <= i < n ==> w[i] == ColumnWidth(t.rows[..k], i)
      {
        if ByteLen(row[j]) > w[j] {
          w := w[j := ByteLen(row[j])];
        }
        j := j + 1;
      }
      k := k + 1;
    }
    assert t.rows[..|t.rows|] == t.rows;
  }

  /** One printed cell, `fmt.Printf(" %-*s |", width, cell)`: the cell
      left-justified in its column, or unpadded behind BadWidth when fmt
      rejects the width. */
  function Piece(cell: string, width: nat): (r: string)
    ensures width <= MaxWidth ==> |r| == Max(|cell|, width) + 3 && r[1..1 + |cell|] == cell
    ensures width <= MaxWidth ==> forall k :: 1 + |cell| <= k < |r| - 2 ==> r[k] == ' '
    ensures width > MaxWidth ==> |r| == |cell| + |BadWidth| + 3 && r[1 + |BadWidth|..1 + |BadWidth| + |cell|] == cell
    ensures width > MaxWidth ==> r[1..1 + |BadWidth|] == BadWidth
    ensures r[0] == ' ' && r[|r| - 2..] == " |"
  {
    var field := Justify(cell, width, false);
    var r := " " + field + " |";
    assert r[1..1 + |field|] == field;
    assert r[1..|r| - 2] == field;
    r
  }

  /** One printed row: the pieces of its cells, in order. */
  function RowLine(row: Row, widths: seq<nat>): string
    requires |row| <= |widths|
  {
    if |row| == 0 then "" else Piece(row[0], widths[0]) + RowLine(row[1..], widths[1..])
  }

  /** Print: "(empty table)" for a table without rows, otherwise one line per
      row, header included, with no borders or separator. */
  function Print(t: Table): (lines: seq<string>)
    requires WithinHeader(t)
    ensures |t.rows| == 0 ==> lines == ["(empty table)"]
    ensures |t.rows| > 0 ==> |lines| == |t.rows|
  {
    if |t.rows| == 0 then ["(empty table)"]
    else
      var w := Widths(t);
      seq(|t.rows|, k requires 0 <= k < |t.rows| => RowLine(t.rows[k], w))
  }

  // ---------------------------------------------------------------------------
  // Layout

  /** Every cell fits its column. */
  predicate Fits(row: Row, widths: seq<nat>) {
    |row| <= |widths| && forall j :: 0 <= j < |row| ==> |row[j]| <= widths[j] <= MaxWidth
  }

  lemma FitsTail(row: Row, widths: seq<nat>)
    requires Fits(row, widths) && |row| > 0
    ensures Fits(row[1..], widths[1..])
  {
    assert forall j :: 0 <= j < |row| - 1 ==> row[1..][j] == row[j + 1] && widths[1..][j] == widths[j + 1];
  }

  /** A row whose cells fit is as long as its columns with their framing. */
  lemma {:induction false} RowLineLength(row: Row, widths: seq<nat>)
    requires Fits(row, widths)
    ensures |RowLine(row, widths)| == Offset(widths, |row|)
  {
    if |row| > 0 {
      FitsTail(row, widths);
      RowLineLength(row[1..], widths[1..]);
    }
  }

  /** The pieces of a row's cells, each left-justified to its column. */
  function Pieces(row: Row, widths: seq<nat>): (ps: seq<string>)
    requires |row| <= |widths|
    ensures |ps| == |row|
  {
    seq(|row|, j requires 0 <= j < |row| => Piece(row[j], widths[j]))
  }

  /** In a row whose cells fit, cell j's piece, left-justified to the column
      width, starts at the column's offset. */
  lemma {:induction false} RowLineLayout(row: Row, widths: seq<nat>)
    requires Fits(row, widths)
    ensures Columns(RowLine(row, widths), widths, Pieces(row, widths))
  {
    if |row| > 0 {
      FitsTail(row, widths);
      RowLineLayout(row[1..], widths[1..]);
      assert Pieces(row, widths)[1..] == Pieces(row[1..], widths[1..]);
      ColumnsCons(Piece(row[0], widths[0]), RowLine(row[1..], widths[1..]), widths, Pieces(row, widths));
    }
  }

  /** Every row of a table fits the computed widths (rune count never exceeds
      byte length), so in a table whose rows all have a cell per column every
      printed line has the same length. */
  lemma PrintAligned(t: Table)
    requires WithinHeader(t) && |t.rows| > 0 && AcceptedWidths(Widths(t))
    requires forall k :: 0 <= k < |t.rows| ==> |t.rows[k]| == |t.rows[0]|
    ensures forall k :: 0 <= k < |t.rows| ==> |Print(t)[k]| == Offset(Widths(t), |t.rows[0]|)
  {
    var w := Widths(t);
    forall k | 0 <= k < |t.rows|
      ensures |Print(t)[k]| == Offset(w, |t.rows[0]|)
    {
      forall j | 0 <= j < |t.rows[k]|
        ensures |t.rows[k][j]| <= w[j] <= MaxWidth
      {
        ColumnWidthBound(t.rows, j, k);
      }
      RowLineLength(t.rows[k], w);
    }
  }

  /** Line k of the printout is row k's pieces: each cell, left-justified to
      its column's width, starts at the column's offset. */
  lemma PrintLayout(t: Table, k: nat)
    requires WithinHeader(t) && k < |t.rows| && AcceptedWidths(Widths(t))
    ensures Columns(Print(t)[k], Widths(t), Pieces(t.rows[k], Widths(t)))
  {
    var w := Widths(t);
    forall j | 0 <= j < |t.rows[k]|
      ensures |t.rows[k][j]| <= w[j] <= MaxWidth
    {
      ColumnWidthBound(t.rows, j, k);
    }
    RowLineLayout(t.rows[k], w);
  }

  // ---------------------------------------------------------------------------
  // Against the current table

  /** The two versions agree on column widths when no cell holds a line
      break; they differ only in splitting cells into lines. */
  lemma {:induction false} SameWidths(rows: seq<Row>, i: nat)
    requires forall k, j :: 0 <= k < |rows| && 0 <= j < |rows[k]| ==> '\n' !in rows[k][j]
    ensures ColumnWidth(rows, i) == Tables.ColumnWidth(rows, i)
  {
    if |rows| > 0 {
      var last := rows[|rows| - 1];
      SameWidths(rows[..|rows| - 1], i);
      if i < |last| {
        Tables.CellWidthSingleLine(last[i]);
      }
    }
  }

  lemma WidthsAgree(t: Table)
    requires forall k, j :: 0 <= k < |t.rows| && 0 <= j < |t.rows[k]| ==> '\n' !in t.rows[k][j]
    ensures Widths(t) == Tables.Widths(Tables.Table(t.rows))
  {
    if |t.rows| > 0 {
      forall i | 0 <= i < |t.rows[0]|
        ensures Widths(t)[i] == Tables.Widths(Tables.Table(t.rows))[i]
      {
        SameWidths(t.rows, i);
      }
    }
  }
}

=== FILE: markdown.dfy ===
/**
 The Markdown renderer of `cmd/scraper/table.go` (`PrintMarkdown`). Each
 rendered line (one `Fprintln`, without its newline) is `| cell ` per cell and
 a closing `|`; the header row is followed by a separator with a `| --- `
 per header cell. Cells are written as they are: neither padded nor escaped,
 so the lines can be read back into the rows exactly when no cell holds a `|`.
 */
module Markdown {
  import opened Text
  import opened Tables

  /** The `| cell ` pieces of a row, in order. */
  function Cells(row: Row): string
  {
    if |row| == 0 then "" else "| " + row[0] + " " + Cells(row[1..])
  }

  /** One Markdown table line: the pieces of the row and the closing `|`. */
  function MarkdownLine(row: Row): (l: string)
    ensures |l| >= 1 && l[0] == '|' && l[|l| - 1] == '|'
    ensures |row| == 0 <==> l == "|"
  {
    var l := Cells(row) + "|";
    assert |row| > 0 ==> l[0] == '|' && |l| > 1;
    l
  }

  /** The separator line under the header: `| --- ` per header cell, then `|`. */
  function Separator(n: nat): string
  {
    if n == 0 then "|" else "| --- " + Separator(n - 1)
  }

  /** The separator is the Markdown line of a row of n `---` cells, so it has
      as many columns as the header. */
  lemma {:induction false} SeparatorIsLine(n: nat)
    ensures Separator(n) == MarkdownLine(Dashes(n))
  {
    if n > 0 {
      SeparatorIsLine(n - 1);
      var d := Dashes(n);
      assert d[1..] == Dashes(n - 1);
      assert "| " + d[0] + " " == "| --- ";
      assert Cells(d) == "| --- " + Cells(Dashes(n - 1));
      assert Separator(n) == "| --- " + (Cells(Dashes(n - 1)) + "|");
    }
  }

  function Dashes(n: nat): (r: Row)
    ensures |r| == n
    ensures forall i :: 0 <= i < n ==> r[i] == "---"
  {
    seq(n, _ => "---")
  }

  /** PrintMarkdown: "(empty table)" for a table without rows; otherwise the
      header line, the separator and a line per data row. Rows may have any
      number of cells. */
  function PrintMarkdown(t: Table): (lines: seq<string>)
    ensures |t.rows| == 0 ==> lines == ["(empty table)"]
    ensures |t.rows| > 0 ==> |lines| == |t.rows| + 1
  {
    if |t.rows| == 0 then ["(empty table)"]
    else
      [MarkdownLine(t.rows[0]), Separator(|t.rows[0]|)]
      + seq(|t.rows| - 1, k requires 0 <= k < |t.rows| - 1 => MarkdownLine(t.rows[k + 1]))
  }

  // ---------------------------------------------------------------------------
  // Reading a line back

  /** A cell as it appears between two `|`: with one blank on each side. */
  function Padded(row: Row): (ps: seq<string>)
    ensures |ps| == |row|
  {
    seq(|row|, j requires 0 <= j < |row| => " " + row[j] + " ")
  }

  /** The piece between two `|` without its surrounding blanks. */
  function Unpad(p: string): string
  {
    if |p| >= 2 then p[1..|p| - 1] else p
  }

  /** Reading a Markdown table line back into its cells: the text between the
      outer `|`s, split at each inner `|`, each piece without its blanks. */
  function ParseLine(l: string): (row: Row)
    ensures |l| > 2 ==> |row| == multiset(l[1..|l| - 1])['|'] + 1
  {
    if |l| <= 2 then []
    else
      var parts := Split(l[1..|l| - 1], '|');
      seq(|parts|, j requires 0 <= j < |parts| => Unpad(parts[j]))
  }

  /** The pieces of a non-empty row are the separator-joined padded cells. */
  lemma {:induction false} CellsJoin(row: Row)
    requires |row| > 0
    ensures Cells(row) == "|" + Join(Padded(row), '|')
  {
    if |row| > 1 {
      CellsJoin(row[1..]);
      assert Padded(row)[1..] == Padded(row[1..]);
    } else {
      assert Cells(row[1..]) == "";
    }
  }

  /** Reading back the Markdown line of a row whose cells hold no `|` gives
      the row. */
  lemma {:induction false} MarkdownRoundTrip(row: Row)
    requires forall j :: 0 <= j < |row| ==> '|' !in row[j]
    ensures ParseLine(MarkdownLine(row)) == row
  {
    if |row| > 0 {
      FilledRoundTrip(row);
    }
  }

  lemma {:induction false} FilledRoundTrip(row: Row)
    requires |row| > 0
    requires forall j :: 0 <= j < |row| ==> '|' !in row[j]
    ensures ParseLine(MarkdownLine(row)) == row
  {
    var l := MarkdownLine(row);
    var inner := Join(Padded(row), '|');
    CellsJoin(row);
    assert l == "|" + inner + "|";
    assert l[1..|l| - 1] == inner;
    forall j | 0 <= j < |row|
      ensures '|' !in Padded(row)[j]
    {
      assert Padded(row)[j] == " " + row[j] + " ";
    }
    SplitJoin(Padded(row), '|');
    assert |l| > 2;
    forall j | 0 <= j < |row|
      ensures Unpad(Padded(row)[j]) == row[j]
    {
      var p := " " + row[j] + " ";
      assert p[1..|p| - 1] == row[j];
    }
  }

  /** Where the rows land: line 0 is the header row's, line 1 the separator,
      line k + 1 data row k's. */
  lemma PrintMarkdownLines(t: Table, k: nat)
    requires 0 < k < |t.rows|
    ensures PrintMarkdown(t)[0] == MarkdownLine(t.rows[0])
    ensures PrintMarkdown(t)[1] == Separator(|t.rows[0]|)
    ensures PrintMarkdown(t)[k + 1] == MarkdownLine(t.rows[k])
  {
  }

  /** Reading back a printed table: the header line gives the header row, the
      separator gives one `---` per header cell and line k + 1 gives data row
      k, provided no cell holds a `|`. */
  lemma {:induction false} PrintMarkdownReadsBack(t: Table)
    requires |t.rows| > 0
    requires forall k, j :: 0 <= k < |t.rows| && 0 <= j < |t.rows[k]| ==> '|' !in t.rows[k][j]
    ensures ParseLine(PrintMarkdown(t)[0]) == t.rows[0]
    ensures ParseLine(PrintMarkdown(t)[1]) == Dashes(|t.rows[0]|)
    ensures forall k :: 1 <= k < |t.rows| ==> ParseLine(PrintMarkdown(t)[k + 1]) == t.rows[k]
  {
    HeaderReadsBack(t);
    forall k | 1 <= k < |t.rows|
      ensures ParseLine(PrintMarkdown(t)[k + 1]) == t.rows[k]
    {
      PrintMarkdownLines(t, k);
      MarkdownRoundTrip(t.rows[k]);
    }
  }

  lemma {:induction false} HeaderReadsBack(t: Table)
    requires |t.rows| > 0
    requires forall j :: 0 <= j < |t.rows[0]| ==> '|' !in t.rows[0][j]
    ensures ParseLine(PrintMarkdown(t)[0]) == t.rows[0]
    ensures ParseLine(PrintMarkdown(t)[1]) == Dashes(|t.rows[0]|)
  {
    var n := |t.rows[0]|;
    MarkdownRoundTrip(t.rows[0]);
    SeparatorIsLine(n);
    MarkdownRoundTrip(Dashes(n));
    assert PrintMarkdown(t)[0] == MarkdownLine(t.rows[0]);
    assert PrintMarkdown(t)[1] == Separator(n);
  }
}

=== FILE: output.dfy ===
/**
 The output side of the renderers that look at write failures. A Go
 `io.Writer` is described by which of its writes fail and with what error. A
 renderer that stops at the first failed write, as `PrintHTML` does with its
 `if err != nil { return err }` after every write, emits a prefix of what it
 meant to write.
 */
module Output {

  datatype Option<T> = None | Some(value: T)

  /** A writer, described by the writes it fails: write number i fails with
      error failing[i] when i is a key, and succeeds otherwise. */
  datatype Writer = Writer(failing: map<nat, string>)

  const Healthy := Writer(map[])

  /** Whether write number i fails on w. */
  predicate Fails(w: Writer, i: nat) {
    i in w.failing
  }

  /** The first of writes 0 .. n - 1 that fails, if any. */
  function FirstFailure(w: Writer, n: nat): (r: Option<nat>)
    ensures r == None <==> forall i :: 0 <= i < n ==> !Fails(w, i)
    ensures r.Some? ==> r.value < n && Fails(w, r.value) && forall i :: 0 <= i < r.value ==> !Fails(w, i)
  {
    if n == 0 then None
    else
      var r := FirstFailure(w, n - 1);
      if r.Some? then r else if Fails(w, n - 1) then Some(n - 1) else None
  }

  /** What a run of writes left behind: the items written and the error that
      stopped it, if any. */
  datatype Emitted<T> = Emitted(written: seq<T>, err: Option<string>)

  /** Writing items one by one and stopping at the first failure: everything
      before the first failing write is written, nothing after it is
      attempted, and the failing write's error is returned. */
  function Emit<T>(items: seq<T>, w: Writer): (r: Emitted<T>)
    ensures r.err == None <==> forall i :: 0 <= i < |items| ==> !Fails(w, i)
    ensures r.err == None ==> r.written == items
    ensures r.err != None ==> && |r.written| < |items| && r.written == items[..|r.written|]
                              && Fails(w, |r.written|) && r.err == Some(w.failing[|r.written|])
                              && forall i :: 0 <= i < |r.written| ==> !Fails(w, i)
  {
    match FirstFailure(w, |items|)
    case None => Emitted(items, None)
    case Some(k) => Emitted(items[..k], Some(w.failing[k]))
  }

  /** The write loop of the renderers: one write per item, returning at the
      first error. It leaves behind what Emit describes. */
  method WriteAll<T>(items: seq<T>, w: Writer) returns (written: seq<T>, err: Option<string>)
    ensures |written| <= |items| && written == items[..|written|]
    ensures err == None <==> forall i :: 0 <= i < |items| ==> !Fails(w, i)
    ensures Emitted(written, err) == Emit(items, w)
  {
    written := [];
    var i := 0;
    while i < |items|
      invariant 0 <= i <= |items|
      invariant written == items[..i]
      invariant forall j :: 0 <= j < i ==> !Fails(w, j)
    {
      if Fails(w, i) {
        return written, Some(w.failing[i]);
      }
      written := written + [items[i]];
      i := i + 1;
    }
    return written, None;
  }

  /** Writing a concatenation: the first part is written out in full before
      any of the second is attempted. */
  lemma EmitAppend<T>(a: seq<T>, b: seq<T>, w: Writer)
    ensures Emit(a + b, w).err == None ==> Emit(a, w).err == None && Emit(a + b, w).written == a + b
    ensures Emit(a, w).err != None ==> Emit(a + b, w) == Emit(a, w)
  {
    var r := Emit(a, w);
    if r.err != None {
      assert (a + b)[..|r.written|] == a[..|r.written|];
    }
  }
}

=== FILE: records.dfy ===
/**
 The JSON side of `cmd/scraper/table.go`: `ToJSON`, `PrintJSON` and
 `PrintAllTablesJSON`. The header row names the fields; every other row
 becomes a record mapping the header of each of its cells to the cell. A row
 shorter than the header leaves the missing fields out, and when two headers
 are equal the later cell wins. The bytes `encoding/json` produces are not
 modelled: output is a JSON value handed to the encoder.
 */
module Records {
  import opened Text
  import opened Tables
  import opened Output

  /** A `map[string]string` built from one row. */
  type Record = map<string, string>

  /** A JSON value as `encoding/json` would receive it. A nil slice encodes
      as `null`. */
  datatype Json = Null | Str(s: string) | Arr(items: seq<Json>) | Obj(fields: map<string, Json>)

  /** No later cell of the row has the same header as cell i. */
  predicate LastWith(headers: Row, row: Row, i: nat)
    requires i < |row| <= |headers|
  {
    forall j :: i < j < |row| ==> headers[j] != headers[i]
  }

  /** The record of a row: `rowMap[headers[i]] = cell` for each cell in order.
      Its keys are the headers of the row's cells. */
  function RowMap(headers: Row, row: Row): (r: Record)
    requires |row| <= |headers|
    ensures r.Keys == set i | 0 <= i < |row| :: headers[i]
  {
    if |row| == 0 then map[]
    else
      var n := |row| - 1;
      var below := RowMap(headers, row[..n]);
      assert (set i | 0 <= i < |row| :: headers[i]) == below.Keys + {headers[n]};
      below[headers[n] := row[n]]
  }

  /** A cell whose header no later cell shares is the value under that
      header: later cells overwrite earlier ones. */
  lemma {:induction false} RowMapAt(headers: Row, row: Row, i: nat)
    requires i < |row| <= |headers| && LastWith(headers, row, i)
    ensures RowMap(headers, row)[headers[i]] == row[i]
  {
    var n := |row| - 1;
    var below := RowMap(headers, row[..n]);
    assert RowMap(headers, row) == below[headers[n] := row[n]];
    if i < n {
      assert headers[n] != headers[i];
      assert row[..n][i] == row[i];
      assert LastWith(headers, row[..n], i);
      RowMapAt(headers, row[..n], i);
    }
  }

  /** The last cell of the row filed under key, or -1: an independent
      account of which cell a field ends up holding. */
  function LastIndex(headers: Row, row: Row, key: string): (i: int)
    requires |row| <= |headers|
    ensures -1 <= i < |row|
    ensures i == -1 <==> forall j :: 0 <= j < |row| ==> headers[j] != key
    ensures 0 <= i ==> headers[i] == key && forall j :: i < j < |row| ==> headers[j] != key
  {
    if |row| == 0 then -1
    else if headers[|row| - 1] == key then |row| - 1
    else LastIndex(headers, row[..|row| - 1], key)
  }

  /** A field is present exactly when some cell is filed under it, and then
      holds the last such cell. */
  lemma RowMapLookup(headers: Row, row: Row, key: string)
    requires |row| <= |headers|
    ensures key in RowMap(headers, row) <==> LastIndex(headers, row, key) >= 0
    ensures key in RowMap(headers, row) ==> RowMap(headers, row)[key] == row[LastIndex(headers, row, key)]
  {
    var i := LastIndex(headers, row, key);
    if i >= 0 {
      RowMapAt(headers, row, i);
    }
  }

  /** All headers differ. */
  predicate Distinct(headers: Row) {
    forall i, j :: 0 <= i < j < |headers| ==> headers[i] != headers[j]
  }

  /** With distinct headers every cell is under its own header, and the
      headers past the end of a short row are absent. */
  lemma RowMapDistinct(headers: Row, row: Row)
    requires |row| <= |headers| && Distinct(headers)
    ensures forall i :: 0 <= i < |row| ==> RowMap(headers, row)[headers[i]] == row[i]
    ensures forall i :: |row| <= i < |headers| ==> headers[i] !in RowMap(headers, row)
  {
    forall i | 0 <= i < |row|
      ensures RowMap(headers, row)[headers[i]] == row[i]
    {
      RowMapAt(headers, row, i);
    }
  }

  /** ToJSON: nothing (nil) for a table without rows; otherwise one record per
      row after the header, in order. */
  function ToJson(t: Table): (rs: seq<Record>)
    requires WithinHeader(t)
    ensures |t.rows| <= 1 ==> rs == []
    ensures |t.rows| > 0 ==> |rs| == |t.rows| - 1
    ensures forall k :: 0 <= k < |rs| ==> rs[k] == RowMap(t.rows[0], t.rows[k + 1])
  {
    if |t.rows| == 0 then []
    else seq(|t.rows| - 1, k requires 0 <= k < |t.rows| - 1 => RowMap(t.rows[0], t.rows[k + 1]))
  }

  // ---------------------------------------------------------------------------
  // Reading the records back

  /** The row a record stands for: the values under the headers, in header
      order, as many as the record has fields. */
  function RecordRow(headers: Row, r: Record): (row: Row)
    ensures |row| == |r|
  {
    seq(|r|, i requires 0 <= i < |r| => if i < |headers| && headers[i] in r then r[headers[i]] else "")
  }

  /** Distinct values of an index range: n of them. */
  lemma {:induction false} HeaderSetSize(headers: Row, n: nat)
    requires n <= |headers| && Distinct(headers)
    ensures |set i | 0 <= i < n :: headers[i]| == n
  {
    if n > 0 {
      HeaderSetSize(headers, n - 1);
      var below := set i | 0 <= i < n - 1 :: headers[i];
      assert (set i | 0 <= i < n :: headers[i]) == below + {headers[n - 1]};
      assert headers[n - 1] !in below;
    }
  }

  /** Under distinct headers the record of a row gives back the row, short
      rows included. */
  lemma {:induction false} RecordRoundTrip(headers: Row, row: Row)
    requires |row| <= |headers| && Distinct(headers)
    ensures RecordRow(headers, RowMap(headers, row)) == row
  {
    var r := RowMap(headers, row);
    HeaderSetSize(headers, |row|);
    assert |r| == |r.Keys|;
    RowMapDistinct(headers, row);
  }

  /** Under distinct headers the records of a table give back its data rows. */
  lemma ToJsonRoundTrip(t: Table)
    requires WithinHeader(t) && |t.rows| > 0 && Distinct(t.rows[0])
    ensures |ToJson(t)| == |t.rows| - 1
    ensures forall k :: 0 <= k < |ToJson(t)| ==> RecordRow(t.rows[0], ToJson(t)[k]) == t.rows[k + 1]
  {
    forall k | 0 <= k < |ToJson(t)|
      ensures RecordRow(t.rows[0], ToJson(t)[k]) == t.rows[k + 1]
    {
      RecordRoundTrip(t.rows[0], t.rows[k + 1]);
    }
  }

  // ---------------------------------------------------------------------------
  // Encoding

  /** The JSON object of one record: a string per field. */
  function RecordValue(r: Record): (v: Json)
    ensures v.Obj? && v.fields.Keys == r.Keys
    ensures forall key :: key in r ==> v.fields[key] == Str(r[key])
  {
    Obj(map key | key in r :: Str(r[key]))
  }

  /** The JSON value of a `[]map[string]string`: `null` when nil, which ToJSON's
      result is exactly when it has no records. */
  function RecordsValue(rs: seq<Record>): (v: Json)
    ensures v == Null <==> |rs| == 0
    ensures v.Arr? ==> |v.items| == |rs| && forall k :: 0 <= k < |rs| ==> v.items[k] == RecordValue(rs[k])
  {
    if |rs| == 0 then Null else Arr(seq(|rs|, k requires 0 <= k < |rs| => RecordValue(rs[k])))
  }

  /** Reading a JSON object of strings back into a record. */
  function ValueRecord(v: Json): Record
  {
    if v.Obj? then map key | key in v.fields && v.fields[key].Str? :: v.fields[key].s else map[]
  }

  /** Reading a JSON array of objects back into records; `null` reads as none. */
  function ValueRecords(v: Json): seq<Record>
  {
    if v.Arr? then seq(|v.items|, k requires 0 <= k < |v.items| => ValueRecord(v.items[k])) else []
  }

  /** A record read back from its JSON object is the record. */
  lemma RecordValueRoundTrip(r: Record)
    ensures ValueRecord(RecordValue(r)) == r
  {
    var back := ValueRecord(RecordValue(r));
    assert back.Keys == r.Keys;
  }

  /** Records read back from their JSON value are the records, in order. */
  lemma RecordsValueRoundTrip(rs: seq<Record>)
    ensures ValueRecords(RecordsValue(rs)) == rs
  {
    forall k | 0 <= k < |rs|
      ensures ValueRecords(RecordsValue(rs))[k] == rs[k]
    {
      RecordValueRoundTrip(rs[k]);
    }
  }

  /** What a JSON renderer writes: a line, or a value for the encoder. */
  datatype Event = Line(text: string) | Value(v: Json)

  /** The writes of an encoder call and its error report: the value, then an
      error line when the encoder's write (write number 0) fails. */
  function Encode(v: Json, w: Writer): (events: seq<Event>)
    ensures 1 <= |events| <= 2 && events[0] == Value(v)
    ensures |events| == 2 <==> Fails(w, 0)
    ensures |events| == 1 <==> !Fails(w, 0)
    ensures Fails(w, 0) ==> events[1] == Line("Error encoding JSON: " + w.failing[0])
  {
    [Value(v)] + if Fails(w, 0) then [Line("Error encoding JSON: " + w.failing[0])] else []
  }

  /** PrintJSON: `[]` for a table without rows; otherwise the records. A table
      with only a header row has no records and so encodes as `null`. */
  function PrintJson(t: Table, w: Writer): (events: seq<Event>)
    requires WithinHeader(t)
    ensures |t.rows| == 0 ==> events == [Line("[]")]
    ensures 1 <= |events| <= 2
    ensures |t.rows| == 1 ==> events[0] == Value(Null)
    ensures |t.rows| > 1 ==> events[0].Value? && events[0].v.Arr? && |events[0].v.items| == |t.rows| - 1
    ensures |t.rows| > 0 ==> (|events| == 2 <==> Fails(w, 0))
  {
    if |t.rows| == 0 then [Line("[]")] else Encode(RecordsValue(ToJson(t)), w)
  }

  /** The entry PrintAllTablesJSON makes for table number i (from 0). */
  function TableEntry(t: Table, i: nat, url: string): (v: Json)
    requires WithinHeader(t)
    ensures v.Obj? && v.fields.Keys == {"name", "url", "rows"}
    ensures v.fields["url"] == Str(url) && v.fields["rows"] == RecordsValue(ToJson(t))
  {
    Obj(map["name" := Str(TableName(i)), "url" := Str(url), "rows" := RecordsValue(ToJson(t))])
  }

  /** `fmt.Sprintf("Table %d", i+1)`: tables are numbered from 1. */
  function TableName(i: nat): (name: string)
    ensures |name| > 6 && name[..6] == "Table "
    ensures forall k :: 6 <= k < |name| ==> '0' <= name[k] <= '9'
    ensures DecimalValue(name[6..]) == i + 1
    ensures name[6] != '0'
  {
    var name := "Table " + NatToString(i + 1);
    assert name[6..] == NatToString(i + 1);
    DecimalRoundTrip(i + 1);
    name
  }

  /** Different tables get different names. */
  lemma TableNamesDistinct(i: nat, j: nat)
    requires i != j
    ensures TableName(i) != TableName(j)
  {
    NatToStringInjective(i + 1, j + 1);
    assert TableName(i)[6..] == NatToString(i + 1);
    assert TableName(j)[6..] == NatToString(j + 1);
  }

  /** PrintAllTablesJSON: `null` for no tables, otherwise one entry per table
      in order, each naming the page it came from. */
  function AllTablesValue(tables: seq<Table>, url: string): (v: Json)
    requires forall i :: 0 <= i < |tables| ==> WithinHeader(tables[i])
    ensures v == Null <==> |tables| == 0
    ensures v.Arr? ==> |v.items| == |tables|
    ensures v.Arr? ==> forall i :: 0 <= i < |tables| ==> v.items[i] == TableEntry(tables[i], i, url)
  {
    if |tables| == 0 then Null
    else Arr(seq(|tables|, i requires 0 <= i < |tables| => TableEntry(tables[i], i, url)))
  }

  function PrintAllTables(tables: seq<Table>, url: string, w: Writer): (events: seq<Event>)
    requires forall i :: 0 <= i < |tables| ==> WithinHeader(tables[i])
    ensures 1 <= |events| <= 2 && events[0] == Value(AllTablesValue(tables, url))
    ensures |events| == 2 <==> Fails(w, 0)
  {
    Encode(AllTablesValue(tables, url), w)
  }

  /** The entries of PrintAllTablesJSON carry distinct names, the page's URL
      and each table's records, `null` for a table with at most a header. */
  lemma AllTablesEntries(tables: seq<Table>, url: string)
    requires forall i :: 0 <= i < |tables| ==> WithinHeader(tables[i])
    requires |tables| > 0
    ensures var v := AllTablesValue(tables, url);
      forall i, j :: 0 <= i < j < |tables| ==> v.items[i].fields["name"] != v.items[j].fields["name"]
    ensures var v := AllTablesValue(tables, url);
      forall i :: 0 <= i < |tables| ==>
        (v.items[i].fields["rows"] == Null <==> |tables[i].rows| <= 1)
  {
    var v := AllTablesValue(tables, url);
    forall i, j | 0 <= i < j < |tables|
      ensures v.items[i].fields["name"] != v.items[j].fields["name"]
    {
      TableNamesDistinct(i, j);
    }
  }

  // ---------------------------------------------------------------------------
  // Reading the output back

  /** When the encoder's write goes through, PrintJSON writes one value and
      nothing else, and reading it back gives ToJSON's records. */
  lemma PrintJsonReadsBack(t: Table, w: Writer)
    requires WithinHeader(t) && |t.rows| > 0 && !Fails(w, 0)
    ensures |PrintJson(t, w)| == 1 && PrintJson(t, w)[0].Value?
    ensures ValueRecords(PrintJson(t, w)[0].v) == ToJson(t)
  {
    RecordsValueRoundTrip(ToJson(t));
  }

  /** With distinct headers, the data rows can be rebuilt from the JSON that
      PrintJSON writes. */
  lemma PrintJsonRoundTrip(t: Table, w: Writer)
    requires WithinHeader(t) && |t.rows| > 0 && !Fails(w, 0) && Distinct(t.rows[0])
    ensures |PrintJson(t, w)| == 1 && PrintJson(t, w)[0].Value?
    ensures var rs := ValueRecords(PrintJson(t, w)[0].v);
      |rs| == |t.rows| - 1 && forall k :: 0 <= k < |rs| ==> RecordRow(t.rows[0], rs[k]) == t.rows[k + 1]
  {
    PrintJsonReadsBack(t, w);
    ToJsonRoundTrip(t);
  }

  /** When the encoder's write goes through, PrintAllTablesJSON writes one
      array with an entry per table, in order: entry i is named after i, gives
      the page's URL, and its rows read back as table i's records. */
  lemma PrintAllTablesReadsBack(tables: seq<Table>, url: string, w: Writer)
    requires forall i :: 0 <= i < |tables| ==> WithinHeader(tables[i])
    requires |tables| > 0 && !Fails(w, 0)
    ensures var ev := PrintAllTables(tables, url, w);
      |ev| == 1 && ev[0].Value? && ev[0].v.Arr? && |ev[0].v.items| == |tables|
    ensures var items := PrintAllTables(tables, url, w)[0].v.items;
      forall i :: 0 <= i < |tables| ==>
        && items[i].fields["name"] == Str(TableName(i))
        && items[i].fields["url"] == Str(url)
        && ValueRecords(items[i].fields["rows"]) == ToJson(tables[i])
  {
    var items := AllTablesValue(tables, url).items;
    forall i | 0 <= i < |tables|
      ensures ValueRecords(items[i].fields["rows"]) == ToJson(tables[i])
    {
      RecordsValueRoundTrip(ToJson(tables[i]));
    }
  }
}

=== FILE: table.dfy ===
/**
 The scraper's table data model (`cmd/scraper/table.go`): a table is a list of
 rows, a row a list of cell strings. Rows may have different lengths; row 0 is
 the header for the formats that need one and fixes the number of columns.
 Column widths are measured in bytes, over the individual lines of a cell.
 */
module Tables {
  import opened Text

  type Row = seq<string>

  datatype Table = Table(rows: seq<Row>)

  /** NewTable: a table with no rows. */
  function NewTable(): (t: Table)
    ensures |t.rows| == 0
  {
    Table([])
  }

  /** AddRow: appends the row as given, without checking its length against the
      other rows; the earlier rows are untouched. */
  function AddRow(t: Table, row: Row): (t': Table)
    ensures |t'.rows| == |t.rows| + 1
    ensures t'.rows[|t.rows|] == row
    ensures forall k :: 0 <= k < |t.rows| ==> t'.rows[k] == t.rows[k]
  {
    Table(t.rows + [row])
  }

  /** The table an extraction builds by starting from NewTable and adding rows
      one after another. */
  function Build(rows: seq<Row>): Table
  {
    if |rows| == 0 then NewTable() else AddRow(Build(rows[..|rows| - 1]), rows[|rows| - 1])
  }

  /** Building a table from a list of rows keeps exactly those rows, in order. */
  lemma {:induction false} BuildKeepsRows(rows: seq<Row>)
    ensures Build(rows).rows == rows
  {
    if |rows| > 0 {
      BuildKeepsRows(rows[..|rows| - 1]);
      assert rows == rows[..|rows| - 1] + [rows[|rows| - 1]];
    }
  }

  /** No row is longer than the header row. The width computation and the JSON
      conversion index the header's columns by the positions of every row's
      cells, so a longer row makes them fail. */
  predicate WithinHeader(t: Table) {
    forall k :: 0 <= k < |t.rows| ==> |t.rows[k]| <= |t.rows[0]|
  }

  // ---------------------------------------------------------------------------
  // Numeric cells

  /** isNumeric: every rune of s is a number, so the empty string is numeric. */
  function IsNumeric(s: string): (b: bool)
    ensures b <==> forall i :: 0 <= i < |s| ==> IsNumber(s[i])
  {
    |s| == 0 || (IsNumber(s[0]) && IsNumeric(s[1..]))
  }

  /** The classification on a few sample cells: a decimal point or a sign makes
      a cell text. */
  lemma NumericExamples()
    ensures IsNumeric("") && IsNumeric("28") && IsNumeric("\U{00BD}")
    ensures !IsNumeric("3.5") && !IsNumeric("-2") && !IsNumeric("28 ")
  {
    assert !IsNumber("3.5"[1]);
    assert !IsNumber("-2"[0]);
    assert !IsNumber("28 "[2]);
  }

  // ---------------------------------------------------------------------------
  // Column widths

  /** The byte length of the longest of the lines. */
  function LongestLine(lines: seq<string>): nat
  {
    if |lines| == 0 then 0
    else Max(LongestLine(lines[..|lines| - 1]), ByteLen(lines[|lines| - 1]))
  }

  lemma {:induction false} LongestLineSnoc(lines: seq<string>, m: nat)
    requires m < |lines|
    ensures LongestLine(lines[..m + 1]) == Max(LongestLine(lines[..m]), ByteLen(lines[m]))
  {
    assert lines[..m + 1][..m] == lines[..m];
  }

  /** LongestLine bounds the byte length of every line... */
  lemma {:induction false} LongestLineBound(lines: seq<string>, j: nat)
    requires j < |lines|
    ensures ByteLen(lines[j]) <= LongestLine(lines)
  {
    if j < |lines| - 1 {
      var init := lines[..|lines| - 1];
      LongestLineBound(init, j);
    }
  }

  /** ... and is 0 or the byte length of one of them. */
  lemma {:induction false} LongestLineWitness(lines: seq<string>) returns (j: nat)
    requires LongestLine(lines) > 0
    ensures j < |lines| && ByteLen(lines[j]) == LongestLine(lines)
  {
    var init := lines[..|lines| - 1];
    if LongestLine(init) > ByteLen(lines[|lines| - 1]) {
      j := LongestLineWitness(init);
    } else {
      j := |lines| - 1;
    }
  }

  lemma {:induction false} LongestLineCons(line: string, lines: seq<string>)
    ensures LongestLine([line] + lines) == Max(ByteLen(line), LongestLine(lines))
  {
    if |lines| > 0 {
      var all := [line] + lines;
      assert all[..|all| - 1] == [line] + lines[..|lines| - 1];
      LongestLineCons(line, lines[..|lines| - 1]);
    } else {
      assert [line] + lines == [line];
      assert ([line])[..0] == [];
    }
  }

  /** The width a cell needs: its longest line, in bytes. */
  function CellWidth(cell: string): nat
  {
    LongestLine(Lines(cell))
  }

  /** strings.Split(cell, "\n"): the lines of a cell. */
  function Lines(cell: string): seq<string>
  {
    Split(cell, '\n')
  }

  /** A cell without a line break is as wide as its byte length. */
  lemma CellWidthSingleLine(c: string)
    requires '\n' !in c
    ensures CellWidth(c) == ByteLen(c)
  {
    CutNotFound(c, '\n');
    assert Lines(c) == [c];
    assert [c][..0] == [];
  }

  /** A cell with a line break is as wide as the wider of its first line and
      the rest. */
  lemma CellWidthCut(c: string)
    requires '\n' in c
    ensures CellWidth(c) == Max(ByteLen(Cut(c, '\n').before), CellWidth(Cut(c, '\n').after))
  {
    var r := Cut(c, '\n');
    assert Lines(c) == [r.before] + Lines(r.after);
    LongestLineCons(r.before, Lines(r.after));
  }

  /** Dropping the first rune of a cell does not widen it. */
  lemma CellWidthDropFirst(c: string)
    requires |c| > 0
    ensures CellWidth(c[1..]) <= CellWidth(c)
  {
    if '\n' !in c {
      DropFirstSingleLine(c);
    } else if c[0] == '\n' {
      DropFirstBreak(c);
    } else {
      DropFirstInLine(c);
    }
  }

  lemma DropFirstSingleLine(c: string)
    requires |c| > 0 && '\n' !in c
    ensures CellWidth(c[1..]) <= CellWidth(c)
  {
    CellWidthSingleLine(c);
    CellWidthSingleLine(c[1..]);
    assert c == [c[0]] + c[1..];
    ByteLenAppend([c[0]], c[1..]);
  }

  lemma DropFirstBreak(c: string)
    requires |c| > 0 && c[0] == '\n'
    ensures CellWidth(c[1..]) <= CellWidth(c)
  {
    CutUnique([], '\n', c[1..]);
    assert c == [] + ['\n'] + c[1..];
    CellWidthCut(c);
  }

  lemma DropFirstInLine(c: string)
    requires |c| > 0 && c[0] != '\n' && '\n' in c
    ensures CellWidth(c[1..]) <= CellWidth(c)
  {
    var r := Cut(c, '\n');
    var b, a := r.before, r.after;
    assert c[1..] == b[1..] + ['\n'] + a;
    CellWidthBreak(b, a);
    CellWidthBreak(b[1..], a);
    ByteLenDropFirst(b);
  }

  /** A first line, a line break and the rest: the wider of the two. */
  lemma {:induction false} CellWidthBreak(b: string, a: string)
    requires '\n' !in b
    ensures CellWidth(b + ['\n'] + a) == Max(ByteLen(b), CellWidth(a))
  {
    CutUnique(b, '\n', a);
    CellWidthCut(b + ['\n'] + a);
  }

  lemma ByteLenDropFirst(b: string)
    requires |b| > 0
    ensures ByteLen(b[1..]) <= ByteLen(b)
  {
  }

  /** Dropping the last rune of a cell does not widen it. */
  lemma {:induction false} CellWidthDropLast(c: string)
    requires |c| > 0
    ensures CellWidth(c[..|c| - 1]) <= CellWidth(c)
    decreases |c|
  {
    if '\n' !in c {
      DropLastSingleLine(c);
    } else {
      var r := Cut(c, '\n');
      if |r.after| == 0 {
        DropLastBreak(c);
      } else {
        var b, a := r.before, r.after;
        assert c == b + ['\n'] + a;
        CellWidthDropLast(a);
        DropLastInLine(c, b, a);
      }
    }
  }

  lemma DropLastSingleLine(c: string)
    requires |c| > 0 && '\n' !in c
    ensures CellWidth(c[..|c| - 1]) <= CellWidth(c)
  {
    var c' := c[..|c| - 1];
    CellWidthSingleLine(c);
    CellWidthSingleLine(c');
    assert c == c' + [c[|c| - 1]];
    ByteLenAppend(c', [c[|c| - 1]]);
  }

  lemma DropLastBreak(c: string)
    requires '\n' in c && |Cut(c, '\n').after| == 0
    ensures CellWidth(c[..|c| - 1]) <= CellWidth(c)
  {
    var r := Cut(c, '\n');
    assert c[..|c| - 1] == r.before;
    CellWidthSingleLine(r.before);
    CellWidthCut(c);
  }

  lemma {:induction false} DropLastInLine(c: string, b: string, a: string)
    requires c == b + ['\n'] + a && '\n' !in b && |a| > 0
    requires CellWidth(a[..|a| - 1]) <= CellWidth(a)
    ensures CellWidth(c[..|c| - 1]) <= CellWidth(c)
  {
    var a' := a[..|a| - 1];
    DropLastOfConcat(b + ['\n'], a);
    assert c[..|c| - 1] == b + ['\n'] + a';
    CellWidthBreak(b, a);
    CellWidthBreak(b, a');
    assert CellWidth(c[..|c| - 1]) == Max(ByteLen(b), CellWidth(a'));
    assert CellWidth(c) == Max(ByteLen(b), CellWidth(a));
  }

  lemma DropLastOfConcat(x: string, a: string)
    requires |a| > 0
    ensures (x + a)[..|x + a| - 1] == x + a[..|a| - 1]
  {
  }

  lemma {:induction false} CellWidthTrimLeft(c: string)
    ensures CellWidth(TrimLeft(c)) <= CellWidth(c)
  {
    if |c| > 0 && IsSpace(c[0]) {
      CellWidthTrimLeft(c[1..]);
      CellWidthDropFirst(c);
    }
  }

  lemma {:induction false} CellWidthTrimRight(c: string)
    ensures CellWidth(TrimRight(c)) <= CellWidth(c)
  {
    if |c| > 0 && IsSpace(c[|c| - 1]) {
      CellWidthTrimRight(c[..|c| - 1]);
      CellWidthDropLast(c);
    }
  }

  /** Trimming a cell does not widen it. */
  lemma CellWidthTrim(c: string)
    ensures CellWidth(TrimSpace(c)) <= CellWidth(c)
  {
    CellWidthTrimLeft(c);
    CellWidthTrimRight(TrimLeft(c));
  }

  /** The width of column i over the rows: the widest cell in that column, among
      the rows that have one. */
  function ColumnWidth(rows: seq<Row>, i: nat): nat
  {
    if |rows| == 0 then 0
    else
      var last := rows[|rows| - 1];
      Max(ColumnWidth(rows[..|rows| - 1], i), if i < |last| then CellWidth(last[i]) else 0)
  }

  lemma {:induction false} ColumnWidthSnoc(rows: seq<Row>, k: nat, i: nat)
    requires k < |rows|
    ensures ColumnWidth(rows[..k + 1], i)
         == Max(ColumnWidth(rows[..k], i), if i < |rows[k]| then CellWidth(rows[k][i]) else 0)
  {
    assert rows[..k + 1][..k] == rows[..k];
  }

  /** ColumnWidth bounds the width of every cell in the column... */
  lemma {:induction false} ColumnWidthBound(rows: seq<Row>, i: nat, k: nat)
    requires k < |rows| && i < |rows[k]|
    ensures CellWidth(rows[k][i]) <= ColumnWidth(rows, i)
  {
    if k < |rows| - 1 {
      ColumnWidthBound(rows[..|rows| - 1], i, k);
    }
  }

  /** ... and is 0 or the width of one of them. */
  lemma {:induction false} ColumnWidthWitness(rows: seq<Row>, i: nat) returns (k: nat)
    requires ColumnWidth(rows, i) > 0
    ensures k < |rows| && i < |rows[k]| && CellWidth(rows[k][i]) == ColumnWidth(rows, i)
  {
    var init := rows[..|rows| - 1];
    if ColumnWidth(init, i) == ColumnWidth(rows, i) {
      k := ColumnWidthWitness(init, i);
    } else {
      k := |rows| - 1;
    }
  }

  /** CalculateColumnWidths, as a value: one width per column of the header row,
      none for a table without rows. */
  function Widths(t: Table): (w: seq<nat>)
    ensures |w| == if |t.rows| == 0 then 0 else |t.rows[0]|
  {
    if |t.rows| == 0 then [] else seq(|t.rows[0]|, i requires 0 <= i => ColumnWidth(t.rows, i))
  }

  /** The meaning of the widths: width i bounds the byte length of every line of
      every cell in column i, and is 0 or the length of one such line. */
  lemma WidthsAreMaxima(t: Table, i: nat)
    requires i < |Widths(t)|
    ensures forall k, j :: 0 <= k < |t.rows| && i < |t.rows[k]| && 0 <= j < |Lines(t.rows[k][i])|
              ==> ByteLen(Lines(t.rows[k][i])[j]) <= Widths(t)[i]
    ensures Widths(t)[i] == 0 ||
              exists k, j :: 0 <= k < |t.rows| && i < |t.rows[k]| && 0 <= j < |Lines(t.rows[k][i])|
                             && ByteLen(Lines(t.rows[k][i])[j]) == Widths(t)[i]
  {
    forall k, j | 0 <= k < |t.rows| && i < |t.rows[k]| && 0 <= j < |Lines(t.rows[k][i])|
      ensures ByteLen(Lines(t.rows[k][i])[j]) <= Widths(t)[i]
    {
      ColumnWidthBound(t.rows, i, k);
      LongestLineBound(Lines(t.rows[k][i]), j);
    }
    if Widths(t)[i] != 0 {
      var k := ColumnWidthWitness(t.rows, i);
      var j := LongestLineWitness(Lines(t.rows[k][i]));
    }
  }

  /** Every cell of every row fits its column. */
  lemma WidthsFit(t: Table, k: nat, i: nat)
    requires WithinHeader(t)
    requires k < |t.rows| && i < |t.rows[k]|
    ensures i < |Widths(t)| && CellWidth(t.rows[k][i]) <= Widths(t)[i]
  {
    ColumnWidthBound(t.rows, i, k);
  }

  /** A one-line ASCII cell is as wide as its rune count. */
  lemma AsciiCellWidth(c: string)
    requires '\n' !in c
    requires forall i :: 0 <= i < |c| ==> c[i] as int < 0x80
    ensures CellWidth(c) == |c|
  {
    CellWidthSingleLine(c);
    ByteLenAscii(c);
  }

  /** The width of a column over three rows that all have it. */
  lemma ColumnWidthOfThree(rows: seq<Row>, i: nat)
    requires |rows| == 3 && i < |rows[0]| && i < |rows[1]| && i < |rows[2]|
    ensures ColumnWidth(rows, i) == Max(Max(CellWidth(rows[0][i]), CellWidth(rows[1][i])), CellWidth(rows[2][i]))
  {
    assert |rows[..0]| == 0;
    ColumnWidthSnoc(rows, 0, i);
    ColumnWidthSnoc(rows, 1, i);
    ColumnWidthSnoc(rows, 2, i);
    assert rows[..3] == rows;
  }

  /** The sample table of the repository's tests, given by the lengths of its
      one-line ASCII cells: "Name" (4), "Age" (3), "Occupation" (10); "John
      Doe" (8), "28" (2), "Software Engineer" (17); "Jane Smith" (10), "34"
      (2), "Data Scientist" (14). Its widths are 10, 3 and 17. */
  lemma SampleWidths(rows: seq<Row>)
    requires |rows| == 3 && |rows[0]| == 3 && |rows[1]| == 3 && |rows[2]| == 3
    requires forall k, i :: 0 <= k < 3 && 0 <= i < 3 ==> '\n' !in rows[k][i]
    requires forall k, i, j :: 0 <= k < 3 && 0 <= i < 3 && 0 <= j < |rows[k][i]| ==> rows[k][i][j] as int < 0x80
    requires |rows[0][0]| == 4 && |rows[0][1]| == 3 && |rows[0][2]| == 10
    requires |rows[1][0]| == 8 && |rows[1][1]| == 2 && |rows[1][2]| == 17
    requires |rows[2][0]| == 10 && |rows[2][1]| == 2 && |rows[2][2]| == 14
    ensures Widths(Build(rows)) == [10, 3, 17]
  {
    BuildKeepsRows(rows);
    forall k, i | 0 <= k < 3 && 0 <= i < 3
      ensures CellWidth(rows[k][i]) == |rows[k][i]|
    {
      AsciiCellWidth(rows[k][i]);
    }
    ColumnWidthOfThree(rows, 0);
    ColumnWidthOfThree(rows, 1);
    ColumnWidthOfThree(rows, 2);
  }

  /** The repository's test table itself: its column widths are 10, 3 and 17. */
  lemma TestTableWidths()
    ensures Widths(Build([["Name", "Age", "Occupation"],
                          ["John Doe", "28", "Software Engineer"],
                          ["Jane Smith", "34", "Data Scientist"]])) == [10, 3, 17]
  {
    SampleWidths([["Name", "Age", "Occupation"],
                  ["John Doe", "28", "Software Engineer"],
                  ["Jane Smith", "34", "Data Scientist"]]);
  }

  /** CalculateColumnWidths: the loops of the source, scanning every line of every
      cell of every row and keeping the longest line per column. */
  method CalculateColumnWidths(t: Table) returns (w: seq<nat>)
    requires WithinHeader(t)
    ensures w == Widths(t)
  {
    if |t.rows| == 0 {
      return [];
    }
    var rows := t.rows;
    w := seq(|rows[0]|, _ => 0);
    for k := 0 to |rows|
      invariant |w| == |rows[0]|
      invariant forall c :: 0 <= c < |w| ==> w[c] == ColumnWidth(rows[..k], c)
    {
      w := ScanRow(w, rows, k);
    }
    assert rows[..|rows|] == rows;
  }

  /** One pass of the row loop: widen every column the row has a cell in. */
  method ScanRow(w: seq<nat>, rows: seq<Row>, k: nat) returns (w': seq<nat>)
    requires k < |rows| && |rows[k]| <= |w|
    requires forall c :: 0 <= c < |w| ==> w[c] == ColumnWidth(rows[..k], c)
    ensures |w'| == |w|
    ensures forall c :: 0 <= c < |w| ==> w'[c] == ColumnWidth(rows[..k + 1], c)
  {
    var row := rows[k];
    w' := w;
    for i := 0 to |row|
      invariant |w'| == |w|
      invariant forall c :: 0 <= c < i ==> w'[c] == ColumnWidth(rows[..k + 1], c)
      invariant forall c :: i <= c < |w| ==> w'[c] == w[c]
    {
      ColumnWidthSnoc(rows, k, i);
      w' := ScanCell(w', i, Lines(row[i]));
    }
    forall c | |row| <= c < |w|
      ensures w'[c] == ColumnWidth(rows[..k + 1], c)
    {
      ColumnWidthSnoc(rows, k, c);
    }
  }

  /** The line loop: widen column i to the longest of the lines. */
  method ScanCell(w: seq<nat>, i: nat, lines: seq<string>) returns (w': seq<nat>)
    requires i < |w|
    ensures |w'| == |w|
    ensures w'[i] == Max(w[i], LongestLine(lines))
    ensures forall c :: 0 <= c < |w| && c != i ==> w'[c] == w[c]
  {
    w' := w;
    for m := 0 to |lines|
      invariant |w'| == |w|
      invariant w'[i] == Max(w[i], LongestLine(lines[..m]))
      invariant forall c :: 0 <= c < |w| && c != i ==> w'[c] == w[c]
    {
      LongestLineSnoc(lines, m);
      if ByteLen(lines[m]) > w'[i] {
        w' := w'[i := ByteLen(lines[m])];
      }
    }
    assert lines[..|lines|] == lines;
  }
}

=== FILE: text.dfy ===
/**
 The string, formatting and character-class primitives the table renderers
 are built from: the parts of Go's `strings`, `fmt`, `strconv` and `unicode`
 packages that the renderers call, each restricted to the behaviour they rely
 on. A Go string is modelled as a sequence of runes (`seq<char>`); its byte
 length, which is what Go's `len` returns, is computed from the UTF-8 width of
 each rune.
 */
module Text {

  function Max(a: nat, b: nat): nat {
    if a < b then b else a
  }

  // ---------------------------------------------------------------------------
  // Character classes

  /** unicode.IsSpace: the Latin-1 spaces and the other Unicode White_Space runes. */
  predicate IsSpace(c: char) {
    || c == ' ' || c == '\t' || c == '\n' || c == '\U{000B}' || c == '\U{000C}' || c == '\r'
    || c == '\U{0085}' || c == '\U{00A0}' || c == '\U{1680}'
    || ('\U{2000}' <= c <= '\U{200A}')
    || c == '\U{2028}' || c == '\U{2029}' || c == '\U{202F}' || c == '\U{205F}' || c == '\U{3000}'
  }

  /** unicode.IsNumber (categories Nd, Nl and No), restricted to Latin-1:
      the ASCII digits and the superscripts and vulgar fractions. */
  predicate IsNumber(c: char) {
    || ('0' <= c <= '9')
    || c == '\U{00B2}' || c == '\U{00B3}' || c == '\U{00B9}'
    || ('\U{00BC}' <= c <= '\U{00BE}')
  }

  // ---------------------------------------------------------------------------
  // Byte length

  /** Number of bytes the UTF-8 encoding of c takes. */
  function RuneBytes(c: char): (n: nat)
    ensures 1 <= n <= 4
    ensures n == 1 <==> c as int < 0x80
  {
    if c as int < 0x80 then 1
    else if c as int < 0x800 then 2
    else if c as int < 0x1_0000 then 3
    else 4
  }

  /** Go's `len(s)`: the length of s in bytes, never less than its rune count. */
  function ByteLen(s: string): (n: nat)
    ensures |s| <= n <= 4 * |s|
  {
    if |s| == 0 then 0 else RuneBytes(s[0]) + ByteLen(s[1..])
  }

  lemma {:induction false} ByteLenAppend(a: string, b: string)
    ensures ByteLen(a + b) == ByteLen(a) + ByteLen(b)
  {
    if |a| == 0 {
      assert a + b == b;
    } else {
      assert (a + b)[1..] == a[1..] + b;
      ByteLenAppend(a[1..], b);
    }
  }

  /** On ASCII text byte length and rune count agree. */
  lemma {:induction false} ByteLenAscii(s: string)
    requires forall i :: 0 <= i < |s| ==> s[i] as int < 0x80
    ensures ByteLen(s) == |s|
  {
    if |s| > 0 {
      ByteLenAscii(s[1..]);
    }
  }

  // ---------------------------------------------------------------------------
  // Padding: fmt's `%*s` and `%-*s`, whose width counts runes

  function Repeat(c: char, n: nat): (r: string)
    ensures |r| == n
    ensures forall i :: 0 <= i < n ==> r[i] == c
  {
    seq(n, _ => c)
  }

  /** The padding of fmt `%*s`: s right-justified in a field of `width` runes;
      never truncated. */
  function PadLeft(s: string, width: nat): (r: string)
    ensures |r| == Max(|s|, width)
    ensures r[|r| - |s|..] == s
    ensures forall i :: 0 <= i < |r| - |s| ==> r[i] == ' '
  {
    if |s| < width then Repeat(' ', width - |s|) + s else s
  }

  /** The padding of fmt `%-*s`: s left-justified in a field of `width` runes;
      never truncated. */
  function PadRight(s: string, width: nat): (r: string)
    ensures |r| == Max(|s|, width)
    ensures r[..|s|] == s
    ensures forall i :: |s| <= i < |r| ==> r[i] == ' '
  {
    if |s| < width then s + Repeat(' ', width - |s|) else s
  }

  /** The widest field fmt accepts for a `*` width argument. */
  const MaxWidth: nat := 1000000

  /** Column widths fmt accepts as `*` arguments. */
  predicate AcceptedWidths(widths: seq<nat>) {
    forall j :: 0 <= j < |widths| ==> widths[j] <= MaxWidth
  }

  /** What fmt writes in place of a `*` width argument it rejects. */
  const BadWidth := "%!(BADWIDTH)"

  /** fmt `%*s` (right) or `%-*s` (left) with the width taken from an argument.
      A width of at most MaxWidth pads as PadLeft or PadRight do; a larger one
      is rejected: fmt writes BadWidth and then the text without padding. */
  function Justify(s: string, width: nat, right: bool): (r: string)
    ensures width <= MaxWidth ==> |r| == Max(|s|, width)
    ensures width <= MaxWidth && right ==> r[|r| - |s|..] == s && forall i :: 0 <= i < |r| - |s| ==> r[i] == ' '
    ensures width <= MaxWidth && !right ==> r[..|s|] == s && forall i :: |s| <= i < |r| ==> r[i] == ' '
    ensures width > MaxWidth ==> |r| == |s| + 12 && r[..12] == BadWidth && r[12..] == s
    ensures '\n' in r ==> '\n' in s
  {
    if width > MaxWidth then BadWidth + s
    else if right then PadLeft(s, width)
    else PadRight(s, width)
  }

  // ---------------------------------------------------------------------------
  // Searching and cutting

  /** strings.IndexByte: the first index of c in s, or -1. */
  function IndexOf(s: string, c: char): (i: int)
    ensures -1 <= i < |s|
    ensures i == -1 <==> c !in s
    ensures 0 <= i ==> s[i] == c && c !in s[..i]
  {
    if |s| == 0 then -1
    else if s[0] == c then 0
    else
      var j := IndexOf(s[1..], c);
      assert j >= 0 ==> s[..j + 1] == [s[0]] + s[1..][..j];
      if j < 0 then -1 else j + 1
  }

  datatype CutResult = CutResult(before: string, after: string, found: bool)

  /** strings.Cut with a one-rune separator: the text around the first sep. */
  function Cut(s: string, sep: char): (r: CutResult)
    ensures r.found <==> sep in s
    ensures r.found ==> s == r.before + [sep] + r.after && sep !in r.before
    ensures !r.found ==> r.before == s && r.after == ""
  {
    var i := IndexOf(s, sep);
    if i < 0 then CutResult(s, "", false)
    else
      assert s == s[..i] + [sep] + s[i + 1..];
      CutResult(s[..i], s[i + 1..], true)
  }

  /** Cut is determined by the position of the first separator. */
  lemma {:induction false} CutUnique(before: string, sep: char, after: string)
    requires sep !in before
    ensures Cut(before + [sep] + after, sep) == CutResult(before, after, true)
  {
    var s := before + [sep] + after;
    assert s[|before|] == sep && s[..|before|] == before;
    assert s[|before| + 1..] == after;
  }

  lemma {:induction false} CutNotFound(s: string, sep: char)
    requires sep !in s
    ensures Cut(s, sep) == CutResult(s, "", false)
  {
  }

  // ---------------------------------------------------------------------------
  // Splitting and joining

  /** None of the pieces holds the separator. */
  predicate NoSep(parts: seq<string>, sep: char) {
    forall i :: 0 <= i < |parts| ==> sep !in parts[i]
  }

  lemma NoSepCons(head: string, rest: seq<string>, sep: char)
    requires sep !in head && NoSep(rest, sep)
    ensures NoSep([head] + rest, sep)
  {
    assert forall i :: 1 <= i <= |rest| ==> ([head] + rest)[i] == rest[i - 1];
  }

  /** strings.Split with a one-rune separator: one piece per separator, plus one. */
  function Split(s: string, sep: char): (parts: seq<string>)
    ensures |parts| == multiset(s)[sep] + 1
    ensures NoSep(parts, sep)
    decreases |s|
  {
    var r := Cut(s, sep);
    if !r.found then [s]
    else
      CutCount(s, sep);
      var rest := Split(r.after, sep);
      NoSepCons(r.before, rest, sep);
      [r.before] + rest
  }

  /** Cutting at the first separator removes exactly one separator. */
  lemma CutCount(s: string, sep: char)
    requires sep in s
    ensures multiset(s)[sep] == multiset(Cut(s, sep).after)[sep] + 1
  {
    var r := Cut(s, sep);
    assert multiset(s) == multiset(r.before) + multiset([sep]) + multiset(r.after);
    assert multiset(r.before)[sep] == 0;
  }

  /** strings.Join with a one-rune separator. */
  function Join(parts: seq<string>, sep: char): string
  {
    if |parts| == 0 then ""
    else if |parts| == 1 then parts[0]
    else parts[0] + [sep] + Join(parts[1..], sep)
  }

  /** Joining the pieces of a split gives back the string. */
  lemma {:induction false} JoinSplit(s: string, sep: char)
    ensures Join(Split(s, sep), sep) == s
    decreases |s|
  {
    var r := Cut(s, sep);
    if r.found {
      JoinSplit(r.after, sep);
      var tail := Split(r.after, sep);
      assert Split(s, sep) == [r.before] + tail;
      assert ([r.before] + tail)[1..] == tail;
    }
  }

  /** Splitting a join of separator-free pieces gives back the pieces. */
  lemma {:induction false} SplitJoin(parts: seq<string>, sep: char)
    requires |parts| >= 1
    requires forall i :: 0 <= i < |parts| ==> sep !in parts[i]
    ensures Split(Join(parts, sep), sep) == parts
  {
    if |parts| == 1 {
      CutNotFound(parts[0], sep);
    } else {
      CutUnique(parts[0], sep, Join(parts[1..], sep));
      SplitJoin(parts[1..], sep);
      assert parts == [parts[0]] + parts[1..];
    }
  }

  // ---------------------------------------------------------------------------
  // Trimming

  /** strings.TrimLeftFunc(s, unicode.IsSpace) */
  function TrimLeft(s: string): (r: string)
    ensures |r| <= |s| && r == s[|s| - |r|..]
    ensures forall i :: 0 <= i < |s| - |r| ==> IsSpace(s[i])
    ensures |r| > 0 ==> !IsSpace(r[0])
  {
    if |s| > 0 && IsSpace(s[0]) then TrimLeft(s[1..]) else s
  }

  /** strings.TrimRightFunc(s, unicode.IsSpace) */
  function TrimRight(s: string): (r: string)
    ensures |r| <= |s| && r == s[..|r|]
    ensures forall i :: |r| <= i < |s| ==> IsSpace(s[i])
    ensures |r| > 0 ==> !IsSpace(r[|r| - 1])
  {
    if |s| > 0 && IsSpace(s[|s| - 1]) then TrimRight(s[..|s| - 1]) else s
  }

  /** strings.TrimSpace: s without its leading and trailing white space. */
  function TrimSpace(s: string): (r: string)
    ensures |r| <= |s| && multiset(r) <= multiset(s)
    ensures exists a :: Window(s, r, a)
    ensures |r| > 0 ==> !IsSpace(r[0]) && !IsSpace(r[|r| - 1])
    ensures (|s| == 0 || (!IsSpace(s[0]) && !IsSpace(s[|s| - 1]))) ==> r == s
  {
    var l := TrimLeft(s);
    var r := TrimRight(l);
    TrimMultiset(s, l, r);
    TrimWindow(s, l, r);
    r
  }

  /** r is the part of s starting at a, and everything of s before and after
      it is white space. */
  predicate Window(s: string, r: string, a: nat) {
    && a + |r| <= |s| && r == s[a..a + |r|]
    && (forall i :: 0 <= i < a ==> IsSpace(s[i]))
    && (forall i :: a + |r| <= i < |s| ==> IsSpace(s[i]))
  }

  /** The trimmed text is a window of s with only white space outside it:
      l is s after its leading white space, r is l before its trailing
      white space. */
  lemma TrimWindow(s: string, l: string, r: string)
    requires |l| <= |s| && l == s[|s| - |l|..] && forall i :: 0 <= i < |s| - |l| ==> IsSpace(s[i])
    requires |r| <= |l| && r == l[..|r|] && forall i :: |r| <= i < |l| ==> IsSpace(l[i])
    ensures Window(s, r, |s| - |l|)
  {
    var a := |s| - |l|;
    assert s[a..][..|r|] == s[a..a + |r|];
    forall i | a + |r| <= i < |s|
      ensures IsSpace(s[i])
    {
      assert s[i] == l[i - a];
    }
  }

  lemma TrimMultiset(s: string, l: string, r: string)
    requires |l| <= |s| && l == s[|s| - |l|..]
    requires |r| <= |l| && r == l[..|r|]
    ensures multiset(r) <= multiset(s)
  {
    assert s == s[..|s| - |l|] + l;
    assert l == r + l[|r|..];
  }

  // ---------------------------------------------------------------------------
  // Decimal formatting

  function DigitChar(d: nat): (c: char)
    requires d < 10
    ensures '0' <= c <= '9' && c as int - '0' as int == d
  {
    ('0' as int + d) as char
  }

  /** strconv.Itoa / `%d` on a non-negative integer. */
  function NatToString(n: nat): (s: string)
    ensures |s| >= 1
    ensures forall i :: 0 <= i < |s| ==> '0' <= s[i] <= '9'
    ensures n > 0 ==> s[0] != '0'
  {
    if n < 10 then [DigitChar(n)] else NatToString(n / 10) + [DigitChar(n % 10)]
  }

  /** The value of a string of decimal digits. */
  function DecimalValue(s: string): nat
    requires forall i :: 0 <= i < |s| ==> '0' <= s[i] <= '9'
  {
    if |s| == 0 then 0
    else DecimalValue(s[..|s| - 1]) * 10 + (s[|s| - 1] as int - '0' as int)
  }

  /** Reading back the decimal form of n gives n. */
  lemma {:induction false} DecimalRoundTrip(n: nat)
    ensures DecimalValue(NatToString(n)) == n
  {
    if n >= 10 {
      var s := NatToString(n);
      assert s[..|s| - 1] == NatToString(n / 10);
      DecimalRoundTrip(n / 10);
    }
  }

  /** Distinct numbers have distinct decimal forms. */
  lemma NatToStringInjective(m: nat, n: nat)
    requires m != n
    ensures NatToString(m) != NatToString(n)
  {
    DecimalRoundTrip(m);
    DecimalRoundTrip(n);
  }
}
